=== FILE: README.md ===
# golden_watch in Dafny

A model of the core of golden_watch, a Next.js service that scrapes a bank's
gold price page with a headless browser, stores each price in PostgreSQL and
serves the latest price, the price history and the scraper settings over HTTP.
A node-cron task can repeat the scrape in the background.

The model covers:

- the store of `lib/db.ts`: the lazy schema set-up, the configuration rows and
  the price rows;
- the scrape of `lib/scraper.ts`: the URL fallback, the wait for the unit, the
  regular expression `(\d+(?:\.\d+)?)\s*元\/克` and the write of the new row;
- the cron state of `lib/cron.ts`;
- the three route handlers under `app/api/`.

Everything is a pure function over immutable values:

- **Store.** `Db.Store` holds the `initialized` flag, the price rows in
  insertion order, the `scraper_config` map and the next value of the `SERIAL`
  sequence.
- **Database calls.** What PostgreSQL does on one call is a `Db.Backend`: the
  outcome of the schema statements, and the statement at which the call fails,
  if any. Statements before that one keep their effect, which is how the two
  separate upserts of `saveCronConfig` can leave a torn write. An `INSERT` that
  fails after drawing its id still uses up that value of the sequence, since
  PostgreSQL never gives sequence values back (`Db.FailedInsertSkipsId`). An
  operation fails exactly when `initDb` fails or one of the statements it
  reaches does, and it throws that error. Every operation returns a `Reply`:
  the store afterwards together with the result. A failed query therefore
  still keeps a raised `initialized` flag.
- **Browser.** The browser is an input, `Scraper.Browser`: it fails to launch,
  fails to navigate, or renders a page whose `innerText` is given. A launched
  browser's `close()` either succeeds or throws a given message.
- **Clock.** `Date.now()` and `NOW()` are integer millisecond inputs.
- **Cron validator.** node-cron's `validate` is an optional predicate,
  `Cron.Validator`.
- **Regular expression.** The expression is modelled twice and the two are
  proved equal:
  - a greedy scan (`PriceMatch.MatchAt`, `PriceMatch.FirstMatchFrom`);
  - the pattern read as a language (`PriceMatch.Shaped`, `PriceMatch.MatchesAt`).

  The scan finds a match exactly where the language has one, the leftmost one.
  Backtracking cannot change the result: each part of the pattern is followed
  by a character that part cannot consume.
- **`parseInt` and `trim`.** These follow ECMA-262:
  - `trim` removes WhiteSpace and LineTerminator (sections 12.2 and 12.3).
  - `parseInt` with radix 10 follows section 19.2.5.

  `parseInt` is proved to read back every decimal numeral, whatever white space
  precedes it, whatever sign it has and whatever non-digit text follows it.

Where the code and the design description of the repository differ, the model
follows the code:

- A fresh cached row is answered without any `source` field (`GoldPriceRoute.NoSource`).
  The design says it is tagged `cache`.
- An absent `days` parameter selects every row, as `all` does. The design says
  it selects a default window.
- `saveCronConfig` runs two statements, so a failure of the second leaves the new
  `cron_enabled` next to the old expression (`Db.CronConfigTornWrite`). The
  design says every write is one atomic statement.
- `getGoldHistory(limit)` orders by id (`ORDER BY id DESC`, lib/db.ts:177). The
  design orders `history(limit)` by timestamp (`Db.GetGoldHistory`).

Quirks of the code that the model keeps and states:

- A falsy non-string `cron.expression` (`false`, `0`) passes the settings check.
  It is stored as the text `String` gives it (`SettingsRoute.FalseExpressionIsStored`).
- The stored expression is untrimmed while the running task uses the trimmed
  one (`SettingsRoute.StartedExpressionIsTrimmed`).
- A stored empty `scrape_url` reads as the default, and the read does not
  replace it (`Db.EmptyUrlStaysEmpty`).

## Model

| member | source | states |
|---|---|---|
| Db.InitDb | lib/db.ts:19-56 | the schema statements run only while the flag is down; initialisation succeeds exactly when the flag is up, the statements succeed, or they fail with a unique violation (23505); any other error is passed on with the flag still down; no data changes |
| Db.InitDbOnce | lib/db.ts:20-47 | once initialisation succeeded, every later call succeeds and changes nothing, whatever the schema statements would do |
| Db.ConfiguredUrl | lib/db.ts:78-85 | the URL read from a configuration is never empty; it is the stored value when that is non-empty, and the default otherwise |
| Db.GetScraperUrl | lib/db.ts:70-89 | it fails exactly when `initDb`, the select or, for a missing or empty stored URL, the default insert fails, and throws that error; a successful read returns the configured URL, never empty; the default row is inserted only when no `scrape_url` row exists; price rows are untouched |
| Db.EmptyUrlStaysEmpty | lib/db.ts:78-84 | a stored empty URL reads as the default and stays empty, because the insert does nothing on conflict |
| Db.UpdateScraperUrl | lib/db.ts:91-103 | it fails exactly when `initDb` or the upsert fails, and throws that error; on success it returns the URL and changes only the `scrape_url` entry; on failure the configuration is unchanged |
| Db.UpdateThenReadUrl | lib/db.ts:70-103 | after an update, a successful read returns the new URL if non-empty and the default otherwise, and writes nothing |
| Db.UpdateUrlKeepsOtherKeys | lib/db.ts:95-98 | every configuration key other than `scrape_url` keeps its presence and value |
| Db.GetCronConfig | lib/db.ts:105-127 | it fails exactly when `initDb` or the select fails, and throws that error; `enabled` holds exactly when the stored text is "true"; the expression is null exactly when it is absent or empty, and otherwise the stored text |
| Db.CronConfigDefault | lib/db.ts:113-114 | with no configuration rows the result is disabled with no expression |
| Db.SaveCronConfig | lib/db.ts:129-151 | it fails exactly when `initDb` or one of the two upserts fails, and throws that error; on success both keys hold the new values, with null written as the empty string; on failure either nothing or only `cron_enabled` was written |
| Db.CronConfigRoundTrip | lib/db.ts:105-151 | reading after a successful save gives back the flag, and the expression unless it was null or empty |
| Db.CronConfigTornWrite | lib/db.ts:140-147 | when the second upsert fails, the new `cron_enabled` is persisted next to the old expression and the error is returned |
| Db.AddGoldPrice | lib/db.ts:153-170 | it fails exactly when `initDb` or the insert fails, and throws that error; on success exactly one row is appended; it has the next sequence id, larger than every stored id, and the given price, unit and timestamp; on failure the rows are unchanged, and the sequence has moved on when the insert failed after drawing the id; the key invariant is kept |
| Db.FailedInsertSkipsId | lib/db.ts:153-160 | an insert that fails after drawing its id stores nothing, and the next successful insert gets the id after the lost one |
| Db.NewestFirst | lib/db.ts:177 | the rows in reverse insertion order, which is descending id order |
| Db.GetGoldHistory | lib/db.ts:172-189 | it fails exactly when `initDb` or the select fails, with that error, or when the limit is negative, with PostgreSQL's 2201W; otherwise it returns `min(limit, rows)` stored rows; in a store whose ids increase they are in strictly descending id order, each with a larger id than every row left out |
| Db.GetLatestGoldPrice | lib/db.ts:225-228 | it fails exactly when `initDb` or the select fails, and throws that error; null exactly when the table is empty; otherwise a stored row whose id is the largest |
| Db.LatestIsLast | lib/db.ts:172-189 | in a store whose ids increase, the latest row is the last one inserted |
| Db.AddThenLatest | lib/db.ts:153-170 | right after a successful insert, the latest row is the inserted row |
| Db.SortByTime | lib/db.ts:200 | the result is a permutation of the rows in descending timestamp order |
| Db.Since | lib/db.ts:207 | a row is in the result exactly when it is stored and its timestamp is at or after the window start; each such row occurs as often as it is stored, and no other row occurs |
| Db.GetGoldHistoryByDays | lib/db.ts:191-223 | it fails exactly when `initDb` or the select fails, and throws that error; the answer is in descending timestamp order; for null it is a permutation of all rows; for `days` it holds exactly the rows at or after `now - days * 86400000`, each as often as it is stored |
| Db.OperationsKeepValid | lib/db.ts:24-29 | reading and writing configuration keeps the primary key invariant: ids are unique, increasing and below the next sequence value |
| JsText.RunLengthRun | lib/scraper.ts:28 | a greedy run of `\d` or `\s` is all of its class and stops at the end of the text or at a character outside the class |
| JsText.TrimStart | lib/cron.ts:24 | the result is a suffix of the input; what it drops is white space, and it does not start with white space |
| JsText.TrimEnd | lib/cron.ts:24 | the result is a prefix of the input; what it drops is white space, and it does not end with white space |
| JsText.Trim | lib/cron.ts:24 | the result is a slice of the input with only white space on either side, and it neither starts nor ends with white space |
| JsText.DecimalRoundTrip | app/api/gold-history/route.ts:13 | reading back the decimal text of a natural number gives that number |
| JsText.ParseIntReadsDigits | app/api/gold-history/route.ts:13 | `parseInt` of white space, an optional sign, digits and then a non-digit is the signed value of the digits |
| JsText.ParseIntReadsDecimal | app/api/gold-history/route.ts:13 | `parseInt` reads back every printed number, with any leading white space, either sign and any non-digit tail |
| JsText.ParseIntSkipsSpace | app/api/gold-history/route.ts:13 | leading white space does not change what `parseInt` reads |
| JsText.ParseInt | app/api/gold-history/route.ts:13-14 | `parseInt` is NaN exactly when no digit follows the white space and the optional sign; a negative result needs a leading minus after the white space |
| PriceMatch.FirstMatchFrom | lib/scraper.ts:28 | the scan returns a position where the pattern is found and where no earlier position from the start matches, or reports that no position matches |
| PriceMatch.ShapedScan | lib/scraper.ts:28 | wherever the text has the shape of the pattern from a position, the greedy scan finds exactly that match |
| PriceMatch.MatchAtSound | lib/scraper.ts:28 | what the scan finds matches the pattern; its capture is a decimal number, and the whole match is the capture, white space and the unit |
| PriceMatch.MatchAtComplete | lib/scraper.ts:28 | every match of the pattern at a position is the one the scan finds there, with the same end |
| PriceMatch.NoMatchInMeansNone | lib/scraper.ts:28 | positions where the scan finds nothing have no match of the pattern at any end |
| PriceMatch.FirstMatchIsLeftmost | lib/scraper.ts:28 | the first match found is a match of the pattern, and none starts before it |
| PriceMatch.FirstMatchNone | lib/scraper.ts:28-29 | the scan finds nothing exactly when the pattern matches no substring of the text |
| PriceMatch.Extract | lib/scraper.ts:26-37 | a value the page script returns always carries the unit as its unit |
| PriceMatch.ExtractShape | lib/scraper.ts:26-37 | the page script returns a decimal price, the unit, and as full text the price, white space and the unit |
| PriceMatch.ExtractFound | lib/scraper.ts:28-34 | the full text returned occurs in the page where the leftmost match of the pattern starts, and is that match |
| PriceMatch.ExtractNullIffNoMatch | lib/scraper.ts:26-37 | the page script returns null exactly when the pattern matches nowhere in the text |
| PriceMatch.ExtractNeedsUnit | lib/scraper.ts:22-28 | a text the pattern matches contains the unit, so the wait always succeeds before an extraction that succeeds |
| Scraper.ScrapeUrl | lib/scraper.ts:7-9 | the URL is never empty; a failed read gives the default and a non-empty read gives what was read |
| Scraper.Evaluate | lib/scraper.ts:22-41 | the page yields data exactly when the extraction finds a match; otherwise it times out exactly when the unit is missing, and fails with "pattern not found" when the unit is there but no match is |
| Scraper.ScrapeAndSave | lib/scraper.ts:4-52 | the browser is closed exactly when it was launched; the scrape succeeds exactly when the browser launched and closed without error, the page rendered, the pattern matched its text and the INSERT did not fail; success means the page rendered, the data is the extraction of its text, the timestamp is the clock reading and one row with the price and the unit was appended; an error thrown by `close()` replaces the outcome, even a success after which the row stays written; any other failure writes no row; at most one row is appended and the key invariant is kept |
| Scraper.OnPage | lib/scraper.ts:21-46 | inside the `try` block the run succeeds exactly when the page rendered, the pattern matched and the INSERT did not fail, and an INSERT failure is reported as that store error; a success means the page rendered, the data is the extraction of its text, the timestamp is the clock reading and exactly one row with the next id, the price and the unit was appended; a failure writes no row |
| Scraper.ScrapeStoresLeftmostPrice | lib/scraper.ts:26-46 | a successful scrape appends exactly one row with the next id, a decimal price and the unit |
| Scraper.ScrapeFailures | lib/scraper.ts:22-51 | a page without the unit times out; a page with the unit and no match reports a missing pattern; neither writes a row; an error from `close()` takes the place of either |
| Scraper.CloseFailureAfterWrite | lib/scraper.ts:44-51 | when `close()` throws after the price was stored, the scrape rejects with the close error and the new row with the next id stays in the table |
| Scraper.ScrapeUsesStoredUrl | lib/scraper.ts:7-9 | after a non-empty URL was saved and the read succeeds, the scrape uses that URL |
| Scraper.ScrapeFallsBackToDefault | lib/scraper.ts:7-9 | when reading the URL fails, the scrape uses the default URL |
| Cron.InitialIsStopped | lib/cron.ts:4-12 | before anything is scheduled the state is consistent and the status is disabled with no expression |
| Cron.Status | lib/cron.ts:7-12 | in a consistent state the status is enabled exactly when some task runs, and then an expression is reported |
| Cron.Stop | lib/cron.ts:14-20 | afterwards there is no task and no expression; only the current task changes, and no task runs |
| Cron.StopIdempotent | lib/cron.ts:14-20 | stopping twice is stopping once |
| Cron.Start | lib/cron.ts:22-35 | it fails with "Invalid cron expression" exactly when a validator exists and rejects the trimmed expression; otherwise the stopped tasks gain one new running task with the trimmed expression, which becomes the current one |
| Cron.StartState | lib/cron.ts:22-28 | the state after a start, failed or not, is consistent; after a rejection it is the state after a stop |
| Cron.StartThenStatus | lib/cron.ts:22-35 | after a successful start the status is enabled with the trimmed expression, and exactly one task, the new one, runs |
| Cron.RejectedStartStops | lib/cron.ts:23-28 | a rejected start still stops the running task: the status is disabled with no expression |
| Cron.NoValidatorAcceptsAll | lib/cron.ts:25-26 | without a validator every expression is scheduled |
| Cron.RestartIsExclusive | lib/cron.ts:22-35 | after two successful starts the first task is stopped and only the second runs |
| Cron.Fire | lib/cron.ts:30-34 | one firing appends at most one row, removes none and keeps the key invariant; its error is swallowed |
| Json.Member | app/api/settings/route.ts:32 | reading a member is defined exactly for objects that have the key, and gives its value |
| Http.ErrorText | app/api/settings/route.ts:24 | the error text is never empty: the message when it is non-empty, "Internal Server Error" otherwise |
| GoldPriceRoute.FromRow | app/api/gold-price/route.ts:22-26 | the answer carries the row's price and unit, and its full text is the price followed by the unit |
| GoldPriceRoute.Fallback | app/api/gold-price/route.ts:40-59 | the fallback serves a stored row from the cache, or a 500 with the error text only when the table is empty; the second read's rejection goes unhandled exactly when that read fails, and carries its error; when it succeeds the answer is a 500 exactly when the table is empty; in a store whose ids increase the row served is the last one inserted; it writes nothing |
| GoldPriceRoute.Get | app/api/gold-price/route.ts:8-62 | an answer without source is a fresh stored row and writes nothing; a scraper answer appended exactly one row and carries the scrape time; a cache answer in a store whose ids increase is the last row of the table afterwards; a 500 happens only with an empty table; at most one row is written and the key invariant is kept; when the first read throws, nothing is written, any answer served comes from the cache and a 500 carries the first read's error text |
| GoldPriceRoute.FirstReadFailureFallsBack | app/api/gold-price/route.ts:9-59 | when the first read throws and the second succeeds, nothing is written and the answer is the last row of the table, or a 500 with the first read's error text exactly when the table is empty |
| GoldPriceRoute.Refresh | app/api/gold-price/route.ts:32-59 | after a scrape an answer always names its source; a scraper answer appended exactly one row and carries the scrape time; a cache answer in a store whose ids increase is the last row of the table afterwards; a 500 happens only with an empty table; at most one row is written and the key invariant is kept |
| GoldPriceRoute.FreshRowIsServed | app/api/gold-price/route.ts:15-29 | a latest row younger than 10000 ms is served without scraping, and it is the last row inserted |
| GoldPriceRoute.ScrapedAnswerIsStored | app/api/gold-price/route.ts:15-38 | a missing or stale latest row and a successful scrape give the scraper answer; it is appended as the new last row with the next id, the unit and the scrape time, and its price is a decimal |
| GoldPriceRoute.RefreshFallsBack | app/api/gold-price/route.ts:40-59 | after a failed scrape the request writes nothing more and never rejects when the second read succeeds: a 500 exactly when the table is empty, otherwise its last row from the cache; unless `close()` failed that table is the one before the scrape |
| GoldPriceRoute.FailedScrapeFallsBack | app/api/gold-price/route.ts:40-59 | a stale or missing row and a failed scrape give a 500 exactly when the table is empty, and otherwise its last row from the cache; unless `close()` failed that table is the one the request started with |
| GoldPriceRoute.CloseFailureServesNewRow | app/api/gold-price/route.ts:32-59 | when `close()` throws after the scraped price was stored, the request answers from the cache with exactly that new row |
| SettingsRoute.SavedExpression | app/api/settings/route.ts:46 | only null and undefined become null; a string is stored as sent; `false` and `0` are stored as "false" and "0" |
| SettingsRoute.Post | app/api/settings/route.ts:29-72 | a 400 happens exactly when the body is a non-null value whose `scrapeUrl` is not a string or whose `cron` fails the check, and it changes nothing; its reason names the URL when the URL is wrong and the cron configuration otherwise; a success stored the URL, and with a falsy `cron` nothing else, leaving the cron state alone; a warning reports the rejected expression with the cron task stopped; no price row changes and the cron state stays consistent |
| SettingsRoute.Save | app/api/settings/route.ts:43-64 | a checked body never gives a 400; success stores the URL; a falsy `cron` writes nothing but the URL, so both cron keys keep their values, and like a failure it leaves the cron state alone |
| SettingsRoute.Apply | app/api/settings/route.ts:49-61 | a warning arises exactly when the cron is enabled, the expression is truthy and the start fails; otherwise the state is the started task, or a stop when not both enabled and truthy |
| SettingsRoute.Get | app/api/settings/route.ts:7-27 | a successful answer carries the configured URL, a cron flag that is on exactly when `cron_enabled` is "true", and the stored expression, none exactly when it is absent or empty; a failure has a non-empty error; no price row changes; the answer is an error exactly when the URL read or the cron read fails, and the error text is that read's message |
| SettingsRoute.BothWritesSucceed | app/api/settings/route.ts:43-64 | with both writes successful, the store holds the URL and both cron keys, and the cron state and the answer are those of lines 49-61 |
| SettingsRoute.StartedExpressionIsTrimmed | app/api/settings/route.ts:46-51 | an accepted expression is stored as sent, while the status reports it trimmed |
| SettingsRoute.RefusedExpressionIsSaved | app/api/settings/route.ts:46-58 | a refused expression is still stored as enabled; the answer is a success with the warning, and the cron task is stopped |
| SettingsRoute.FalseExpressionIsStored | app/api/settings/route.ts:38-61 | `expression: false` passes the check; the configuration then reads back as enabled with the expression "false" while no task runs |
| SettingsRoute.EnabledWithoutExpressionStops | app/api/settings/route.ts:45-61 | enabled with an empty expression is stored as enabled, but the cron task is stopped |
| SettingsRoute.CronSaveFailureKeepsUrl | app/api/settings/route.ts:43-46 | when the cron write fails after the URL write, the answer is a 500, the new URL stays stored and the cron state is untouched |
| SettingsRoute.UrlOnlyLeavesCron | app/api/settings/route.ts:43-45 | a body without `cron` writes only the URL and leaves the cron state alone |
| SettingsRoute.FalsyCronLeavesCron | app/api/settings/route.ts:43-47 | a body whose `cron` is `null`, `false`, `0` or `""` writes only the URL, keeps both cron keys and leaves the cron state alone |
| SettingsRoute.SavedSettingsReadBack | app/api/settings/route.ts:7-20 | after a save whose two writes succeeded, a successful `GET` reads back the URL sent (the default for an empty one), the flag sent and the expression sent (none for an empty one) |
| GoldHistoryRoute.Days | app/api/gold-history/route.ts:9-17 | an absent or empty parameter and "all" select every row; any other text selects what `parseInt` reads |
| GoldHistoryRoute.Get | app/api/gold-history/route.ts:7-32 | a 500 happens exactly when `initDb` or the query fails, and carries that error's message; otherwise the answer is in descending timestamp order: all rows for a null day count, exactly the rows inside the window otherwise, each as often as it is stored |
| GoldHistoryRoute.DaysReadsCount | app/api/gold-history/route.ts:12-16 | a decimal count with leading white space, an optional sign and any trailing non-digit text selects that many days |
| GoldHistoryRoute.NonNumericMeansAll | app/api/gold-history/route.ts:12-16 | text where `parseInt` finds no digits selects every row |
| GoldHistoryRoute.AllDaysIsEveryRow | app/api/gold-history/route.ts:12-19 | "all" answers with every stored row exactly once, newest first |
| GoldHistoryRoute.ZeroDaysKeepsFromNow | app/api/gold-history/route.ts:12-19 | "0" is not rejected: when the query runs the request succeeds and keeps only rows stamped at or after the current time |

## Left out

- The `pg` connection pool and its settings: each call's outcome is an input instead. The SQL text, the index and the column types are not modelled.
- Concurrency: `Promise.all` in the settings `GET` is modelled as two reads in sequence. Racing requests and cron firings, and the unique-violation race that `initDb` tolerates, are reduced to that error code as an input.
- Playwright: launching, the extra header, navigation and the polling of `waitForFunction` are left out. The rendered text is an input, and the page is assumed not to change between the wait and the evaluation. The exact wording of Playwright's errors is not reproduced; the timeout message is a fixed text.
- node-cron: the expression grammar is an abstract validator, and when a task fires is not modelled. A `cron.schedule` that throws after validation is not modelled either.
- Next.js and `NextResponse`: status codes and JSON bodies are datatypes. Logging is left out.
- Prices are kept as the matched decimal text. `parseFloat`, the `NUMERIC(10, 2)` rounding and `toString` in the cached answer are left out.
- Timestamps are integer milliseconds, so ISO-8601 text and time zones are not modelled. A day is 86 400 000 ms; `INTERVAL 'n days'` across a daylight-saving change is not modelled.
- JavaScript numbers: JSON numbers are integers, so fractional values are not modelled. `parseInt` results are unbounded integers, so precision loss and exponent notation of huge day counts in the SQL text are not modelled.
- Json.Member: reads own members only; inherited properties such as `constructor` on `{}` are not modelled.
- `app/manifest.ts`, `next.config.js` and `tailwind.config.js` are configuration with no behaviour to state.

=== FILE: cron.dfy ===
/** The in-process cron state of `lib/cron.ts`: at most one scheduled task and
    the expression it was started with, both module-level variables.

    Every task ever scheduled is kept in `jobs` so that stopping can be stated:
    `task` is the index of the current one, and a job is `running` until
    `stopCron` stops it. When jobs fire is node-cron's business; what one firing
    does to the store is `Fire`. */
module Cron {
  import opened Outcomes
  import opened JsText
  import opened Db
  import opened Scraper

  const InvalidExpressionMessage: string := "Invalid cron expression"

  /** A task handed to `cron.schedule`. */
  datatype Job = Job(expression: string, running: bool)

  datatype Scheduler = Scheduler(task: Option<nat>, expression: Option<string>, jobs: seq<Job>)

  /** The state when the server process starts: nothing scheduled. */
  const Initial: Scheduler := Scheduler(None, None, [])

  /** What `getCronStatus` returns. */
  datatype CronStatus = CronStatus(enabled: bool, expression: Option<string>)

  /** node-cron's `validate`, which the code calls only when the library has it. */
  type Validator = Option<string -> bool>

  /** The cron task is the one running job, and the expression is the cron task's. */
  predicate Valid(s: Scheduler) {
    && (s.task.Some? <==> s.expression.Some?)
    && (s.task.Some? ==>
          s.task.value < |s.jobs| && s.jobs[s.task.value] == Job(s.expression.value, true))
    && (forall k :: 0 <= k < |s.jobs| && s.jobs[k].running ==> s.task == Some(k))
  }

  /** `getCronStatus()`. */
  function Status(s: Scheduler): (r: CronStatus)
    ensures Valid(s) ==> (r.enabled <==> exists k :: 0 <= k < |s.jobs| && s.jobs[k].running)
    ensures Valid(s) && r.enabled ==> r.expression.Some?
  {
    CronStatus(s.task.Some?, s.expression)
  }

  /** `stopCron()`: stops the current task, if any, and forgets the expression. */
  function Stop(s: Scheduler): (r: Scheduler)
    ensures r.task.None? && r.expression.None? && |r.jobs| == |s.jobs|
    ensures forall k :: 0 <= k < |s.jobs| ==> r.jobs[k].expression == s.jobs[k].expression
    ensures forall k :: 0 <= k < |s.jobs| && Some(k) != s.task ==> r.jobs[k] == s.jobs[k]
    ensures Valid(s) ==> Valid(r) && forall k :: 0 <= k < |r.jobs| ==> !r.jobs[k].running
  {
    var jobs :=
      if s.task.Some? && s.task.value < |s.jobs| then
        s.jobs[s.task.value := s.jobs[s.task.value].(running := false)]
      else s.jobs;
    Scheduler(None, None, jobs)
  }

  /** `startCron(expression)`: stops the current task, trims the expression,
      rejects it when a validator exists and refuses it, and otherwise schedules
      a new task. A rejected expression leaves the state as `stopCron` left it. */
  function Start(s: Scheduler, expression: string, validate: Validator): (r: Result<Scheduler, string>)
    ensures r.Err? <==> validate.Some? && !validate.value(Trim(expression))
    ensures r.Err? ==> r.error == InvalidExpressionMessage
    ensures r.Ok? ==>
      && r.value.task == Some(|s.jobs|)
      && r.value.expression == Some(Trim(expression))
      && r.value.jobs == Stop(s).jobs + [Job(Trim(expression), true)]
  {
    var stopped := Stop(s);
    var trimmed := Trim(expression);
    if validate.Some? && !validate.value(trimmed) then Err(InvalidExpressionMessage)
    else Ok(Scheduler(Some(|stopped.jobs|), Some(trimmed), stopped.jobs + [Job(trimmed, true)]))
  }

  /** The state after `startCron`, whether it threw or not. */
  function StartState(s: Scheduler, expression: string, validate: Validator): (r: Scheduler)
    ensures Valid(s) ==> Valid(r)
    ensures Start(s, expression, validate).Err? ==> r == Stop(s)
  {
    match Start(s, expression, validate)
    case Ok(t) =>
      if Valid(s) then ScheduleKeepsValid(Stop(s), Trim(expression)); t else t
    case Err(_) => Stop(s)
  }

  /** Scheduling a job on a stopped scheduler gives a valid one. */
  lemma ScheduleKeepsValid(s: Scheduler, e: string)
    requires Valid(s) && s.task.None?
    ensures Valid(Scheduler(Some(|s.jobs|), Some(e), s.jobs + [Job(e, true)]))
  {
    var jobs := s.jobs + [Job(e, true)];
    assert forall k :: 0 <= k < |s.jobs| ==> jobs[k] == s.jobs[k];
  }

  /** One firing of a scheduled task: `scrapeAndSave` with any error swallowed,
      so the only effect is on the store. */
  function Fire(st: Store, env: ScrapeEnv): (r: Store)
    ensures st.rows <= r.rows && |r.rows| <= |st.rows| + 1
    ensures Db.Valid(st) ==> Db.Valid(r)
  {
    ScrapeAndSave(st, env).store
  }

  // ---------------------------------------------------------------------------
  // Laws

  /** A server that has just started reports the cron job as disabled, with no
      expression, until a settings request starts one. */
  lemma InitialIsStopped()
    ensures Valid(Initial)
    ensures Status(Initial) == CronStatus(false, None)
  {
  }

  /** Stopping twice is stopping once. */
  lemma StopIdempotent(s: Scheduler)
    ensures Stop(Stop(s)) == Stop(s)
  {
  }

  /** After a successful start the status reports the trimmed expression, and
      exactly one job, the new one, runs. */
  lemma StartThenStatus(s: Scheduler, expression: string, validate: Validator)
    requires Valid(s)
    requires Start(s, expression, validate).Ok?
    ensures var t := Start(s, expression, validate).value;
      && Status(t) == CronStatus(true, Some(Trim(expression)))
      && forall k :: 0 <= k < |t.jobs| ==> (t.jobs[k].running <==> k == |s.jobs|)
  {
    var t := Start(s, expression, validate).value;
    var stopped := Stop(s);
    forall k | 0 <= k < |t.jobs|
      ensures t.jobs[k].running <==> k == |s.jobs|
    {
      if k < |s.jobs| {
        assert t.jobs[k] == stopped.jobs[k];
      }
    }
  }

  /** A refused expression still stops what was running: the status afterwards
      is disabled with no expression. */
  lemma RejectedStartStops(s: Scheduler, expression: string, validate: Validator)
    requires Valid(s)
    requires Start(s, expression, validate).Err?
    ensures Status(StartState(s, expression, validate)) == CronStatus(false, None)
    ensures forall k :: 0 <= k < |s.jobs| ==> !StartState(s, expression, validate).jobs[k].running
  {
  }

  /** Without a validator every expression is scheduled. */
  lemma NoValidatorAcceptsAll(s: Scheduler, expression: string)
    ensures Start(s, expression, None).Ok?
  {
  }

  /** Starting twice leaves only the second task running: the first is stopped. */
  lemma RestartIsExclusive(s: Scheduler, e1: string, e2: string, validate: Validator)
    requires Valid(s)
    requires Start(s, e1, validate).Ok?
    requires Start(Start(s, e1, validate).value, e2, validate).Ok?
    ensures var t1 := Start(s, e1, validate).value;
      var t2 := Start(t1, e2, validate).value;
      && !t2.jobs[|s.jobs|].running
      && t2.jobs[|s.jobs|].expression == Trim(e1)
      && Status(t2) == CronStatus(true, Some(Trim(e2)))
  {
    var t1 := Start(s, e1, validate).value;
    assert Valid(t1) by {
      assert StartState(s, e1, validate) == t1;
    }
    StartThenStatus(t1, e2, validate);
  }
}

=== FILE: db.dfy ===
/** The persistence layer of `lib/db.ts` as an in-memory value: the
    `gold_prices` table is a sequence of rows kept in insertion order, the
    `scraper_config` table is a map from `name` to `value`, and the process-wide
    `initialized` flag and the `SERIAL` id counter are fields of the same record.

    What the foreign database does on one call is an input (`Backend`): the
    outcome of the schema statements if they are run, and which statement of the
    call, if any, fails. Every statement is atomic and statements before the
    failing one keep their effect, except that a sequence value an `INSERT` has
    drawn is never given back. */
module Db {
  import opened Outcomes

  const DefaultScraperUrl: string :=
    "https://lsjr.ccb.com/msmp/ecpweb/page/internet/dist/preciousMetalsDetail.html?CCB_EmpID=71693716&PM_PD_ID=261108522&Org_Inst_Rgon_Cd=JS&page=preciousMetalsDetail"

  const ScrapeUrlKey: string := "scrape_url"
  const CronEnabledKey: string := "cron_enabled"
  const CronExpressionKey: string := "cron_expression"

  /** The PostgreSQL SQLSTATE of a unique violation, which a racing initialiser raises. */
  const UniqueViolation: string := "23505"

  /** PostgreSQL rejects `LIMIT` with a negative count under this SQLSTATE. */
  const InvalidLimit: string := "2201W"
  const LimitMessage: string := "LIMIT must not be negative"

  const MillisPerDay: int := 86_400_000

  /** One row of `gold_prices`. The price is the decimal text it was stored from;
      the timestamp is in milliseconds since the epoch. */
  datatype Row = Row(id: nat, price: string, unit: string, timestamp: int)

  datatype Store = Store(
    initialized: bool,
    rows: seq<Row>,
    config: map<string, string>,
    nextId: nat)

  /** A fresh process over an empty database: `SERIAL` ids start at 1. */
  const Empty: Store := Store(false, [], map[], 1)

  datatype DbError = DbError(code: string, message: string)

  /** What the three `CREATE ... IF NOT EXISTS` statements of `initDb` do when
      run: succeed, throw inside the `try`, or fail to get a client before it. */
  datatype SchemaOutcome = SchemaCreated | SchemaFailed(error: DbError) | ConnectFailed(error: DbError)

  /** Which statement of an operation fails (0 is the first; failing to get a
      client counts as the first statement failing). */
  datatype Fault = NoFault | FailAt(statement: nat, error: DbError)

  datatype Backend = Backend(schema: SchemaOutcome, fault: Fault)

  /** The store after a call, and what the call returned or threw. */
  datatype Reply<T> = Reply(store: Store, result: Result<T, DbError>)

  datatype CronConfig = CronConfig(enabled: bool, expression: Option<string>)

  predicate FailsAt(f: Fault, k: nat) {
    f.FailAt? && f.statement == k
  }

  /** A call that runs `initDb` and then its first `n` statements fails: either
      initialisation fails or one of those statements does. */
  predicate FailsWithin(s: Store, b: Backend, n: nat) {
    InitDb(s, b.schema).result.Err? || (b.fault.FailAt? && b.fault.statement < n)
  }

  /** What such a failing call throws: the error of `initDb`, else the failing
      statement's. */
  function CallError(s: Store, b: Backend): DbError
    requires InitDb(s, b.schema).result.Err? || b.fault.FailAt?
  {
    if InitDb(s, b.schema).result.Err? then InitDb(s, b.schema).result.error else b.fault.error
  }

  /** The primary key invariant: ids are unique, increase in insertion order and
      stay below the next value of the sequence. */
  predicate Valid(s: Store) {
    && (forall i :: 0 <= i < |s.rows| ==> s.rows[i].id < s.nextId)
    && (forall i, j :: 0 <= i < j < |s.rows| ==> s.rows[i].id < s.rows[j].id)
  }

  predicate SameData(s: Store, t: Store) {
    s.rows == t.rows && s.config == t.config && s.nextId == t.nextId
  }

  lemma SameDataKeepsValid(s: Store, t: Store)
    requires SameData(s, t)
    ensures Valid(s) <==> Valid(t)
  {
  }

  /** `initDb`: schema work only while the flag is down; a unique violation
      counts as success; any other failure propagates with the flag still down. */
  function InitDb(s: Store, schema: SchemaOutcome): (r: Reply<()>)
    ensures SameData(s, r.store)
    ensures r.store.initialized <==> r.result.Ok?
    ensures s.initialized ==> r == Reply(s, Ok(()))
    ensures r.result.Ok? <==>
      s.initialized || schema.SchemaCreated? || (schema.SchemaFailed? && schema.error.code == UniqueViolation)
    ensures r.result.Err? ==> r.result.error == schema.error
  {
    if s.initialized then Reply(s, Ok(()))
    else match schema
      case SchemaCreated => Reply(s.(initialized := true), Ok(()))
      case SchemaFailed(e) =>
        if e.code == UniqueViolation then Reply(s.(initialized := true), Ok(()))
        else Reply(s, Err(e))
      case ConnectFailed(e) => Reply(s, Err(e))
  }

  /** The failure of `initDb` as the failure of the calling operation. */
  function InitFailed<T>(init: Reply<()>): Reply<T>
    requires init.result.Err?
  {
    Reply(init.store, Err(init.result.error))
  }

  /** The value `getScraperUrl` reports for a configuration map. */
  function ConfiguredUrl(config: map<string, string>): (url: string)
    ensures url != ""
    ensures ScrapeUrlKey in config && config[ScrapeUrlKey] != "" ==> url == config[ScrapeUrlKey]
    ensures url != DefaultScraperUrl ==> ScrapeUrlKey in config && url == config[ScrapeUrlKey]
  {
    if ScrapeUrlKey in config && config[ScrapeUrlKey] != "" then config[ScrapeUrlKey]
    else DefaultScraperUrl
  }

  /** `getScraperUrl`: the stored URL when present and non-empty, otherwise the
      default, which is inserted only when no row exists (`ON CONFLICT DO
      NOTHING`): a stored empty value is read as the default and kept. */
  function GetScraperUrl(s: Store, b: Backend): (r: Reply<string>)
    ensures r.result.Err? <==>
      FailsWithin(s, b, if ScrapeUrlKey in s.config && s.config[ScrapeUrlKey] != "" then 1 else 2)
    ensures r.result.Err? ==> r.result.error == CallError(s, b)
    ensures r.store.rows == s.rows && r.store.nextId == s.nextId
    ensures r.result.Ok? ==> r.result.value != ""
    ensures r.result.Ok? ==> r.result.value == ConfiguredUrl(s.config)
    ensures ScrapeUrlKey in s.config ==> r.store.config == s.config
    ensures ScrapeUrlKey !in s.config ==>
      r.store.config == if r.result.Ok? then s.config[ScrapeUrlKey := DefaultScraperUrl] else s.config
  {
    var init := InitDb(s, b.schema);
    if init.result.Err? then InitFailed(init)
    else
      var t := init.store;
      if FailsAt(b.fault, 0) then Reply(t, Err(b.fault.error))
      else if ScrapeUrlKey in t.config && t.config[ScrapeUrlKey] != "" then Reply(t, Ok(t.config[ScrapeUrlKey]))
      else if FailsAt(b.fault, 1) then Reply(t, Err(b.fault.error))
      else if ScrapeUrlKey in t.config then Reply(t, Ok(DefaultScraperUrl))
      else Reply(t.(config := t.config[ScrapeUrlKey := DefaultScraperUrl]), Ok(DefaultScraperUrl))
  }

  /** The single-statement upsert shared by `updateScraperUrl` and `saveCronConfig`. */
  function Upsert(t: Store, key: string, value: string): Store {
    t.(config := t.config[key := value])
  }

  /** `updateScraperUrl(url)`: upserts `scrape_url` and returns `url`. */
  function UpdateScraperUrl(s: Store, b: Backend, url: string): (r: Reply<string>)
    ensures r.result.Err? <==> FailsWithin(s, b, 1)
    ensures r.result.Err? ==> r.result.error == CallError(s, b)
    ensures r.store.rows == s.rows && r.store.nextId == s.nextId
    ensures r.result.Ok? ==> r.result.value == url && r.store.config == s.config[ScrapeUrlKey := url]
    ensures r.result.Err? ==> r.store.config == s.config
  {
    var init := InitDb(s, b.schema);
    if init.result.Err? then InitFailed(init)
    else if FailsAt(b.fault, 0) then Reply(init.store, Err(b.fault.error))
    else Reply(Upsert(init.store, ScrapeUrlKey, url), Ok(url))
  }

  /** `getCronConfig`: `enabled` holds exactly when the stored text is `"true"`;
      an absent or empty expression reads as null. */
  function GetCronConfig(s: Store, b: Backend): (r: Reply<CronConfig>)
    ensures r.result.Err? <==> FailsWithin(s, b, 1)
    ensures r.result.Err? ==> r.result.error == CallError(s, b)
    ensures SameData(s, r.store)
    ensures r.result.Ok? ==>
      (r.result.value.enabled <==> CronEnabledKey in s.config && s.config[CronEnabledKey] == "true")
    ensures r.result.Ok? ==>
      (r.result.value.expression.None? <==> CronExpressionKey !in s.config || s.config[CronExpressionKey] == "")
    ensures r.result.Ok? && r.result.value.expression.Some? ==>
      CronExpressionKey in s.config && r.result.value.expression.value == s.config[CronExpressionKey]
  {
    var init := InitDb(s, b.schema);
    if init.result.Err? then InitFailed(init)
    else if FailsAt(b.fault, 0) then Reply(init.store, Err(b.fault.error))
    else
      var c := init.store.config;
      var enabled := CronEnabledKey in c && c[CronEnabledKey] == "true";
      var expression := if CronExpressionKey in c && c[CronExpressionKey] != "" then Some(c[CronExpressionKey]) else None;
      Reply(init.store, Ok(CronConfig(enabled, expression)))
  }

  /** `saveCronConfig(enabled, expression)`: two upserts, `"true"`/`"false"` first,
      then the expression with null written as the empty string. */
  function SaveCronConfig(s: Store, b: Backend, enabled: bool, expression: Option<string>): (r: Reply<()>)
    ensures r.result.Err? <==> FailsWithin(s, b, 2)
    ensures r.result.Err? ==> r.result.error == CallError(s, b)
    ensures r.store.rows == s.rows && r.store.nextId == s.nextId
    ensures r.result.Ok? ==>
      r.store.config == s.config[CronEnabledKey := if enabled then "true" else "false"][CronExpressionKey := expression.GetOr("")]
    ensures r.result.Err? ==>
      (r.store.config == s.config || r.store.config == s.config[CronEnabledKey := if enabled then "true" else "false"])
  {
    var init := InitDb(s, b.schema);
    if init.result.Err? then InitFailed(init)
    else if FailsAt(b.fault, 0) then Reply(init.store, Err(b.fault.error))
    else
      var t := Upsert(init.store, CronEnabledKey, if enabled then "true" else "false");
      if FailsAt(b.fault, 1) then Reply(t, Err(b.fault.error))
      else Reply(Upsert(t, CronExpressionKey, expression.GetOr("")), Ok(()))
  }

  /** `addGoldPrice`: one `INSERT ... RETURNING *` with the next id of the
      sequence. Statement 0 is everything before the id is drawn (getting a
      client included); statement 1 is the rest of the `INSERT`, such as the
      `NUMERIC(10, 2)` check of the price. A failure there has used up the id. */
  function AddGoldPrice(s: Store, b: Backend, price: string, unit: string, timestamp: int): (r: Reply<Row>)
    ensures r.result.Err? <==> FailsWithin(s, b, 2)
    ensures r.result.Err? ==> r.result.error == CallError(s, b)
    ensures r.store.config == s.config
    ensures r.store.nextId ==
      if r.result.Ok? || (InitDb(s, b.schema).result.Ok? && FailsAt(b.fault, 1)) then s.nextId + 1 else s.nextId
    ensures r.result.Ok? ==>
      && r.result.value == Row(s.nextId, price, unit, timestamp)
      && r.store.rows == s.rows + [r.result.value]
      && (forall i :: 0 <= i < |s.rows| && Valid(s) ==> s.rows[i].id < r.result.value.id)
    ensures r.result.Err? ==> r.store.rows == s.rows
    ensures Valid(s) ==> Valid(r.store)
  {
    var init := InitDb(s, b.schema);
    if init.result.Err? then InitFailed(init)
    else if FailsAt(b.fault, 0) then Reply(init.store, Err(b.fault.error))
    else if FailsAt(b.fault, 1) then Reply(init.store.(nextId := s.nextId + 1), Err(b.fault.error))
    else
      var row := Row(s.nextId, price, unit, timestamp);
      Reply(init.store.(rows := s.rows + [row], nextId := s.nextId + 1), Ok(row))
  }

  /** The rows in descending id order when the store is valid: insertion order reversed. */
  function NewestFirst(rows: seq<Row>): (r: seq<Row>)
    ensures |r| == |rows|
    ensures forall k :: 0 <= k < |r| ==> r[k] == rows[|rows| - 1 - k]
  {
    if rows == [] then [] else [rows[|rows| - 1]] + NewestFirst(rows[..|rows| - 1])
  }

  function Min(a: int, b: int): int {
    if a <= b then a else b
  }

  /** `getGoldHistory(limit)`: `ORDER BY id DESC LIMIT limit`. */
  function GetGoldHistory(s: Store, b: Backend, limit: int): (r: Reply<seq<Row>>)
    ensures SameData(s, r.store)
    ensures r.result.Err? <==> FailsWithin(s, b, 1) || limit < 0
    ensures r.result.Err? ==>
      r.result.error == if FailsWithin(s, b, 1) then CallError(s, b) else DbError(InvalidLimit, LimitMessage)
    ensures r.result.Ok? ==>
      && |r.result.value| == Min(limit, |s.rows|)
      && (forall k :: 0 <= k < |r.result.value| ==> r.result.value[k] in s.rows)
    ensures r.result.Ok? && Valid(s) ==>
      && (forall i, j :: 0 <= i < j < |r.result.value| ==> r.result.value[i].id > r.result.value[j].id)
      && (forall x, k :: x in s.rows && x !in r.result.value && 0 <= k < |r.result.value| ==> x.id < r.result.value[k].id)
  {
    var init := InitDb(s, b.schema);
    if init.result.Err? then InitFailed(init)
    else if FailsAt(b.fault, 0) then Reply(init.store, Err(b.fault.error))
    else if limit < 0 then Reply(init.store, Err(DbError(InvalidLimit, LimitMessage)))
    else
      var r := NewestFirst(s.rows)[..Min(limit, |s.rows|)];
      assert forall k :: 0 <= k < |r| ==> r[k] == s.rows[|s.rows| - 1 - k];
      NewestSuffixIsLargest(s, r);
      Reply(init.store, Ok(r))
  }

  /** A row outside the newest-first prefix `r` has a smaller id than every row of it. */
  lemma NewestSuffixIsLargest(s: Store, r: seq<Row>)
    requires |r| <= |s.rows|
    requires forall k :: 0 <= k < |r| ==> r[k] == s.rows[|s.rows| - 1 - k]
    ensures Valid(s) ==>
      forall x, k :: x in s.rows && x !in r && 0 <= k < |r| ==> x.id < r[k].id
  {
    forall i | |s.rows| - |r| <= i < |s.rows|
      ensures s.rows[i] in r
    {
      assert r[|s.rows| - 1 - i] == s.rows[i];
    }
    if Valid(s) {
      forall x, k | x in s.rows && x !in r && 0 <= k < |r|
        ensures x.id < r[k].id
      {
        var i :| 0 <= i < |s.rows| && s.rows[i] == x;
      }
    }
  }

  /** `getLatestGoldPrice`: the first row of `getGoldHistory(1)`, or null. */
  function GetLatestGoldPrice(s: Store, b: Backend): (r: Reply<Option<Row>>)
    ensures r.result.Err? <==> FailsWithin(s, b, 1)
    ensures r.result.Err? ==> r.result.error == CallError(s, b)
    ensures SameData(s, r.store)
    ensures r.result.Ok? ==> (r.result.value.None? <==> |s.rows| == 0)
    ensures r.result.Ok? && r.result.value.Some? ==> r.result.value.value in s.rows
    ensures r.result.Ok? && r.result.value.Some? && Valid(s) ==>
      forall x :: x in s.rows ==> x.id <= r.result.value.value.id
  {
    var h := GetGoldHistory(s, b, 1);
    match h.result
    case Err(e) => Reply(h.store, Err(e))
    case Ok(list) =>
      if |list| > 0 then
        assert forall x :: x in s.rows && x != list[0] ==> x !in list;
        Reply(h.store, Ok(Some(list[0])))
      else Reply(h.store, Ok(None))
  }

  predicate TimeDescending(rows: seq<Row>) {
    forall i, j :: 0 <= i < j < |rows| ==> rows[i].timestamp >= rows[j].timestamp
  }

  /** Inserts `x` into rows sorted by descending timestamp. */
  function InsertByTime(x: Row, rows: seq<Row>): (r: seq<Row>)
    requires TimeDescending(rows)
    ensures TimeDescending(r)
    ensures multiset(r) == multiset(rows) + multiset{x}
    ensures r[0] == x || (rows != [] && r[0] == rows[0])
  {
    if rows == [] || rows[0].timestamp <= x.timestamp then
      ConsSorted(x, rows);
      [x] + rows
    else
      var tail := InsertByTime(x, rows[1..]);
      assert rows == [rows[0]] + rows[1..];
      ConsSorted(rows[0], tail);
      [rows[0]] + tail
  }

  /** A row no older than the head of a sorted list extends it. */
  lemma ConsSorted(h: Row, tail: seq<Row>)
    requires TimeDescending(tail)
    requires tail == [] || h.timestamp >= tail[0].timestamp
    ensures TimeDescending([h] + tail)
  {
  }

  /** `ORDER BY timestamp DESC`; SQL leaves the order of equal timestamps open,
      the model picks one. */
  function SortByTime(rows: seq<Row>): (r: seq<Row>)
    ensures TimeDescending(r)
    ensures multiset(r) == multiset(rows)
  {
    if rows == [] then []
    else
      assert rows == rows[..|rows| - 1] + [rows[|rows| - 1]];
      InsertByTime(rows[|rows| - 1], SortByTime(rows[..|rows| - 1]))
  }

  /** `WHERE timestamp >= since`, keeping the order of the table. */
  function Since(rows: seq<Row>, since: int): (r: seq<Row>)
    ensures forall x :: x in r <==> x in rows && x.timestamp >= since
    ensures forall x :: multiset(r)[x] == if x.timestamp >= since then multiset(rows)[x] else 0
    ensures multiset(r) <= multiset(rows)
  {
    if rows == [] then []
    else
      assert rows == [rows[0]] + rows[1..];
      if rows[0].timestamp >= since then [rows[0]] + Since(rows[1..], since)
      else Since(rows[1..], since)
  }

  /** The start of the window `NOW() - INTERVAL 'days days'`, a day being
      86 400 000 ms. Zero and negative day counts pass through. */
  function WindowStart(now: int, days: int): int {
    now - days * MillisPerDay
  }

  /** `getGoldHistoryByDays(days)`: every row for null, otherwise the rows inside
      the window, both in descending timestamp order. */
  function GetGoldHistoryByDays(s: Store, b: Backend, days: Option<int>, now: int): (r: Reply<seq<Row>>)
    ensures r.result.Err? <==> FailsWithin(s, b, 1)
    ensures r.result.Err? ==> r.result.error == CallError(s, b)
    ensures SameData(s, r.store)
    ensures r.result.Ok? ==> TimeDescending(r.result.value)
    ensures r.result.Ok? && days.None? ==> multiset(r.result.value) == multiset(s.rows)
    ensures r.result.Ok? && days.Some? ==>
      forall x :: x in r.result.value <==> x in s.rows && x.timestamp >= now - days.value * MillisPerDay
    ensures r.result.Ok? && days.Some? ==>
      forall x :: multiset(r.result.value)[x] ==
        if x.timestamp >= now - days.value * MillisPerDay then multiset(s.rows)[x] else 0
  {
    var init := InitDb(s, b.schema);
    if init.result.Err? then InitFailed(init)
    else if FailsAt(b.fault, 0) then Reply(init.store, Err(b.fault.error))
    else match days
      case None => Reply(init.store, Ok(SortByTime(s.rows)))
      case Some(d) =>
        var r := SortByTime(Since(s.rows, WindowStart(now, d)));
        assert forall x :: x in r <==> x in multiset(r);
        Reply(init.store, Ok(r))
  }

  // ---------------------------------------------------------------------------
  // Laws relating the operations

  /** Once the flag is up, `initDb` ignores what the schema statements would do. */
  lemma InitDbOnce(s: Store, first: SchemaOutcome, later: SchemaOutcome)
    requires InitDb(s, first).result.Ok?
    ensures InitDb(InitDb(s, first).store, later) == Reply(InitDb(s, first).store, Ok(()))
  {
  }

  /** After `updateScraperUrl(u)` a successful `getScraperUrl` reads `u` back when
      `u` is non-empty and the default otherwise, and writes nothing. */
  lemma UpdateThenReadUrl(s: Store, b1: Backend, b2: Backend, u: string)
    requires UpdateScraperUrl(s, b1, u).result.Ok?
    ensures var t := UpdateScraperUrl(s, b1, u).store;
      var r := GetScraperUrl(t, b2);
      && r.store.config == t.config
      && (r.result.Ok? ==> r.result.value == if u != "" then u else DefaultScraperUrl)
  {
  }

  /** Only the `scrape_url` entry changes under `updateScraperUrl`. */
  lemma UpdateUrlKeepsOtherKeys(s: Store, b: Backend, u: string, key: string)
    requires key != ScrapeUrlKey
    ensures var t := UpdateScraperUrl(s, b, u).store;
      (key in t.config <==> key in s.config) && (key in s.config ==> t.config[key] == s.config[key])
  {
  }

  /** A stored empty URL reads as the default and is never overwritten by the read. */
  lemma EmptyUrlStaysEmpty(s: Store, b: Backend)
    requires ScrapeUrlKey in s.config && s.config[ScrapeUrlKey] == ""
    ensures var r := GetScraperUrl(s, b);
      && r.store.config[ScrapeUrlKey] == ""
      && (r.result.Ok? ==> r.result.value == DefaultScraperUrl)
  {
  }

  /** With no configuration rows the cron configuration is disabled with no expression. */
  lemma CronConfigDefault(s: Store, b: Backend)
    requires s.config == map[]
    ensures GetCronConfig(s, b).result.Ok? ==> GetCronConfig(s, b).result.value == CronConfig(false, None)
  {
  }

  /** `saveCronConfig(enabled, e)` then `getCronConfig()` gives back `enabled`, and `e`
      unless it is null or empty. */
  lemma CronConfigRoundTrip(s: Store, b1: Backend, b2: Backend, enabled: bool, e: Option<string>)
    requires SaveCronConfig(s, b1, enabled, e).result.Ok?
    ensures var r := GetCronConfig(SaveCronConfig(s, b1, enabled, e).store, b2);
      r.result.Ok? ==>
        r.result.value == CronConfig(enabled, if e.Some? && e.value != "" then e else None)
  {
  }

  /** The two upserts of `saveCronConfig` are separate statements: when the second
      fails, the new `cron_enabled` is already persisted next to the old expression. */
  lemma CronConfigTornWrite(s: Store, e: DbError, enabled: bool, expression: Option<string>)
    requires s.initialized
    ensures var r := SaveCronConfig(s, Backend(SchemaCreated, FailAt(1, e)), enabled, expression);
      && r.result == Err(e)
      && r.store.config == s.config[CronEnabledKey := if enabled then "true" else "false"]
  {
  }

  /** An `INSERT` that fails after drawing its id leaves a gap: no row is
      stored, and the next successful insert gets the id after the lost one. */
  lemma FailedInsertSkipsId(s: Store, e: DbError, b: Backend, price: string, unit: string, timestamp: int,
                            price2: string, timestamp2: int)
    requires s.initialized
    ensures var r := AddGoldPrice(s, Backend(SchemaCreated, FailAt(1, e)), price, unit, timestamp);
      var next := AddGoldPrice(r.store, b, price2, unit, timestamp2);
      && r.result == Err(e)
      && r.store.rows == s.rows
      && (next.result.Ok? ==> next.result.value.id == s.nextId + 1)
  {
  }

  /** After a successful `addGoldPrice` the new row is the latest one and the
      first row of `getGoldHistory(1)`. */
  lemma AddThenLatest(s: Store, b1: Backend, b2: Backend, price: string, unit: string, timestamp: int)
    requires Valid(s)
    requires AddGoldPrice(s, b1, price, unit, timestamp).result.Ok?
    ensures var a := AddGoldPrice(s, b1, price, unit, timestamp);
      var l := GetLatestGoldPrice(a.store, b2);
      l.result.Ok? ==> l.result.value == Some(a.result.value)
  {
    var a := AddGoldPrice(s, b1, price, unit, timestamp);
    var l := GetLatestGoldPrice(a.store, b2);
    if l.result.Ok? {
      var x := l.result.value.value;
      var row := a.result.value;
      assert row in a.store.rows;
      assert x.id >= row.id;
    }
  }

  /** Every operation keeps the primary key invariant. */
  lemma OperationsKeepValid(s: Store, b: Backend, u: string, enabled: bool, e: Option<string>)
    requires Valid(s)
    ensures Valid(GetScraperUrl(s, b).store)
    ensures Valid(UpdateScraperUrl(s, b, u).store)
    ensures Valid(GetCronConfig(s, b).store)
    ensures Valid(SaveCronConfig(s, b, enabled, e).store)
  {
  }

  /** In a valid store the latest row is the last one inserted. */
  lemma LatestIsLast(s: Store, b: Backend)
    requires Valid(s)
    requires GetLatestGoldPrice(s, b).result.Ok?
    ensures GetLatestGoldPrice(s, b).result.value == if |s.rows| == 0 then None else Some(s.rows[|s.rows| - 1])
  {
    if |s.rows| > 0 {
      var latest := GetLatestGoldPrice(s, b).result.value.value;
      var last := s.rows[|s.rows| - 1];
      assert last in s.rows;
      var i :| 0 <= i < |s.rows| && s.rows[i] == latest;
      assert forall k :: 0 <= k < |s.rows| - 1 ==> s.rows[k].id < last.id;
    }
  }
}

=== FILE: gold_history_route.dfy ===
/** `GET /api/gold-history` of `app/api/gold-history/route.ts`: read the `days`
    query parameter and answer with the rows of that many days, or with all of
    them.

    The query parameter arrives as `Option<string>` (`None` when absent); the
    database reply and the clock reading of `NOW()` are inputs. */
module GoldHistoryRoute {
  import opened Outcomes
  import opened JsText
  import opened Db
  import opened Http

  const AllDays: string := "all"

  datatype HistoryRun = HistoryRun(store: Store, response: Result<seq<Row>, string>)

  /** The `days` argument of `getGoldHistoryByDays`: `null` for a missing or
      empty parameter, for "all" and for text `parseInt` reads as `NaN`;
      otherwise the integer `parseInt` reads, whatever its sign. */
  function Days(param: Option<string>): (days: Option<int>)
    ensures param.None? || param == Some("") || param == Some(AllDays) ==> days.None?
    ensures param.Some? && param.value != "" && param.value != AllDays ==> days == ParseInt(param.value)
  {
    match param
    case None => None
    case Some(p) => if p == "" || p == AllDays then None else ParseInt(p)
  }

  /** `GET(request)`: the rows, or a 500 with the database error's message. */
  function Get(s: Store, b: Backend, param: Option<string>, now: int): (r: HistoryRun)
    ensures SameData(s, r.store)
    ensures r.response.Err? <==> FailsWithin(s, b, 1)
    ensures r.response.Err? ==> r.response.error == ErrorText(CallError(s, b).message)
    ensures r.response.Err? ==> r.response.error != ""
    ensures r.response.Ok? ==> TimeDescending(r.response.value)
    ensures r.response.Ok? && Days(param).None? ==> multiset(r.response.value) == multiset(s.rows)
    ensures r.response.Ok? && Days(param).Some? ==>
      forall x :: x in r.response.value <==>
        x in s.rows && x.timestamp >= now - Days(param).value * MillisPerDay
    ensures r.response.Ok? && Days(param).Some? ==>
      forall x :: multiset(r.response.value)[x] ==
        if x.timestamp >= now - Days(param).value * MillisPerDay then multiset(s.rows)[x] else 0
  {
    var h := GetGoldHistoryByDays(s, b, Days(param), now);
    match h.result
    case Err(e) => HistoryRun(h.store, Err(ErrorText(e.message)))
    case Ok(rows) => HistoryRun(h.store, Ok(rows))
  }

  // ---------------------------------------------------------------------------
  // What the parameter means

  /** A decimal count, signed or not, after any white space and before any
      trailing text ("7", " 30", "7d", "-1 week"), selects that many days. */
  lemma DaysReadsCount(lead: string, sign: Sign, n: nat, rest: string)
    requires AllSpace(lead)
    requires rest == [] || !IsDigit(rest[0])
    ensures Days(Some(lead + (sign.Text() + (DecimalText(n) + rest)))) == Some(sign.Apply(n))
  {
    var p := lead + (sign.Text() + (DecimalText(n) + rest));
    assert |p| > 0 by {
      assert |DecimalText(n)| > 0;
    }
    assert p != AllDays by {
      assert p[|lead| + |sign.Text()|] == DecimalText(n)[0];
      assert IsDigit(DecimalText(n)[0]);
    }
    ParseIntReadsDecimal(lead, sign, n, rest);
  }

  /** Text with no digits where `parseInt` looks for them ("week", "-x") selects
      every row, as "all" and an absent parameter do. */
  lemma NonNumericMeansAll(p: string)
    requires p != ""
    requires var t := TrimStart(p);
      var u := if |t| > 0 && (t[0] == '-' || t[0] == '+') then t[1..] else t;
      u == [] || !IsDigit(u[0])
    ensures Days(Some(p)).None?
  {
  }

  /** With every row selected the answer holds each stored row exactly once,
      newest first. */
  lemma AllDaysIsEveryRow(s: Store, b: Backend, now: int)
    requires Get(s, b, Some(AllDays), now).response.Ok?
    ensures var rows := Get(s, b, Some(AllDays), now).response.value;
      multiset(rows) == multiset(s.rows) && TimeDescending(rows)
  {
  }

  /** "0" and negative counts are not rejected: when the query runs, they put the
      window start at or after the current time, so only rows stamped no
      earlier than that remain. */
  lemma ZeroDaysKeepsFromNow(s: Store, b: Backend, now: int)
    requires !FailsWithin(s, b, 1)
    ensures Get(s, b, Some("0"), now).response.Ok?
    ensures var rows := Get(s, b, Some("0"), now).response.value;
      forall x :: x in rows <==> x in s.rows && x.timestamp >= now
  {
    DaysReadsCount("", Unsigned, 0, "");
    assert "" + (Unsigned.Text() + (DecimalText(0) + "")) == "0";
  }
}

=== FILE: gold_price_route.dfy ===
/** `GET /api/gold-price` of `app/api/gold-price/route.ts`: answer from the
    latest stored row when it is less than ten seconds old, otherwise scrape;
    when anything in that fails, answer from the latest stored row if there is
    one, and with a 500 otherwise.

    The clock reading of the freshness check, the scrape environment and what
    the database does on each of the two reads are inputs. */
module GoldPriceRoute {
  import opened Outcomes
  import opened Db
  import opened PriceMatch
  import opened Scraper
  import opened Http

  /** A stored row younger than this many milliseconds is served as it is. */
  const FreshMillis: int := 10000

  /** The `source` field of a successful answer; a fresh row has none. */
  datatype Source = NoSource | FromScraper | FromCache

  /** The answer. Its `data` object has the fields of what the page evaluation
      returns, whether it was scraped or rebuilt from a stored row. */
  datatype PriceResponse =
    | Served(source: Source, data: Extracted, timestamp: int)
    | ServerError(error: string)
    | Unhandled(thrown: DbError)

  /** The inputs of one request besides the store. */
  datatype PriceEnv = PriceEnv(latestRead: Backend, now: int, scrape: ScrapeEnv, fallbackRead: Backend)

  datatype PriceRun = PriceRun(store: Store, response: PriceResponse)

  /** The answer built from a stored row: its price and unit, with the two
      written one after the other as the full text. */
  function FromRow(row: Row): (d: Extracted)
    ensures d.price == row.price && d.unit == row.unit
    ensures |d.fullText| == |row.price| + |row.unit|
    ensures d.fullText[..|row.price|] == row.price && d.fullText[|row.price|..] == row.unit
  {
    Extracted(row.price, row.unit, row.price + row.unit)
  }

  /** The answer the `catch` block gives from a non-empty table: its last row,
      marked as coming from the cache. */
  predicate ServesLastRow(rows: seq<Row>, response: PriceResponse) {
    |rows| > 0 && response == Served(FromCache, FromRow(rows[|rows| - 1]), rows[|rows| - 1].timestamp)
  }

  predicate Fresh(row: Row, now: int) {
    now - row.timestamp < FreshMillis
  }

  /** The `catch` block: the latest row if the second read finds one, a 500
      with the error's message if the table is empty, and an unhandled rejection
      if the second read throws too. */
  function Fallback(s: Store, b: Backend, message: string): (r: PriceRun)
    ensures SameData(s, r.store)
    ensures r.response.Served? ==> r.response.source == FromCache
    ensures r.response.ServerError? ==> r.response.error == ErrorText(message) && |s.rows| == 0
    ensures r.response.Served? ==> exists row :: row in s.rows && r.response.data == FromRow(row)
    ensures Valid(s) && r.response.Served? ==> ServesLastRow(s.rows, r.response)
    ensures r.response.Unhandled? <==> FailsWithin(s, b, 1)
    ensures r.response.Unhandled? ==> r.response.thrown == CallError(s, b)
    ensures !FailsWithin(s, b, 1) ==> (r.response.ServerError? <==> |s.rows| == 0)
  {
    var l := GetLatestGoldPrice(s, b);
    match l.result
    case Err(e) => PriceRun(l.store, Unhandled(e))
    case Ok(None) => PriceRun(l.store, ServerError(ErrorText(message)))
    case Ok(Some(row)) =>
      var answer := Served(FromCache, FromRow(row), row.timestamp);
      assert Valid(s) ==> ServesLastRow(s.rows, answer) by {
        if Valid(s) { LatestIsLast(s, b); }
      }
      PriceRun(l.store, answer)
  }

  /** `GET()`. */
  function Get(s: Store, env: PriceEnv): (r: PriceRun)
    ensures r.response.Served? && r.response.source == NoSource ==>
      SameData(s, r.store) && exists row :: row in s.rows && Fresh(row, env.now) && r.response.data == FromRow(row)
    ensures r.response.Served? && r.response.source == FromScraper ==>
      |r.store.rows| == |s.rows| + 1 && r.response.timestamp == env.scrape.now
    ensures r.response.ServerError? ==> |r.store.rows| == 0
    ensures Valid(s) && r.response.Served? && r.response.source == FromCache ==> ServesLastRow(r.store.rows, r.response)
    ensures |r.store.rows| <= |s.rows| + 1
    ensures Valid(s) ==> Valid(r.store)
    ensures FailsWithin(s, env.latestRead, 1) ==>
      && SameData(s, r.store)
      && (r.response.Served? ==> r.response.source == FromCache)
      && (r.response.ServerError? ==> r.response.error == ErrorText(CallError(s, env.latestRead).message))
  {
    var first := GetLatestGoldPrice(s, env.latestRead);
    SameDataKeepsValid(s, first.store);
    match first.result
    case Err(e) => Fallback(first.store, env.fallbackRead, e.message)
    case Ok(latest) =>
      if latest.Some? && Fresh(latest.value, env.now) then
        PriceRun(first.store, Served(NoSource, FromRow(latest.value), latest.value.timestamp))
      else Refresh(first.store, env)
  }

  /** Lines 32-59: scrape, and on any failure fall back to the latest row. */
  function Refresh(t: Store, env: PriceEnv): (r: PriceRun)
    ensures r.response.Served? ==> r.response.source != NoSource
    ensures r.response.Served? && r.response.source == FromScraper ==>
      |r.store.rows| == |t.rows| + 1 && r.response.timestamp == env.scrape.now
    ensures r.response.ServerError? ==> |r.store.rows| == 0
    ensures Valid(t) && r.response.Served? && r.response.source == FromCache ==> ServesLastRow(r.store.rows, r.response)
    ensures |r.store.rows| <= |t.rows| + 1
    ensures Valid(t) ==> Valid(r.store)
  {
    var run := ScrapeAndSave(t, env.scrape);
    match run.result
    case Ok(scraped) =>
      PriceRun(run.store, Served(FromScraper, scraped.data, scraped.timestamp))
    case Err(e) => Fallback(run.store, env.fallbackRead, e.Message())
  }

  // ---------------------------------------------------------------------------
  // Properties of a request

  /** A fresh latest row is served without scraping: nothing is written and the
      answer is the last row inserted. */
  lemma FreshRowIsServed(s: Store, env: PriceEnv)
    requires Valid(s)
    requires GetLatestGoldPrice(s, env.latestRead).result.Ok?
    requires |s.rows| > 0
    requires Fresh(s.rows[|s.rows| - 1], env.now)
    ensures var r := Get(s, env);
      && r.store.rows == s.rows
      && r.response == Served(NoSource, FromRow(s.rows[|s.rows| - 1]), s.rows[|s.rows| - 1].timestamp)
  {
    LatestIsLast(s, env.latestRead);
  }

  /** When the first read throws, nothing is scraped or written and the `catch`
      block answers: the last row if the table has one, else a 500 carrying the
      first read's error message. */
  lemma FirstReadFailureFallsBack(s: Store, env: PriceEnv)
    requires Valid(s)
    requires FailsWithin(s, env.latestRead, 1)
    requires !FailsWithin(GetLatestGoldPrice(s, env.latestRead).store, env.fallbackRead, 1)
    ensures var r := Get(s, env);
      && r.store.rows == s.rows
      && (r.response.ServerError? <==> |s.rows| == 0)
      && (r.response.ServerError? ==> r.response.error == ErrorText(CallError(s, env.latestRead).message))
      && (!r.response.ServerError? ==> ServesLastRow(s.rows, r.response))
  {
    var first := GetLatestGoldPrice(s, env.latestRead);
    SameDataKeepsValid(s, first.store);
    assert Get(s, env) == Fallback(first.store, env.fallbackRead, first.result.error.message);
  }

  /** When the latest row is missing or stale and the scrape succeeds, the
      answer is the scraped price, and it is stored as the new last row with
      the next id, the unit and the scrape time. */
  lemma ScrapedAnswerIsStored(s: Store, env: PriceEnv)
    requires GetLatestGoldPrice(s, env.latestRead).result.Ok?
    requires Valid(s)
    requires |s.rows| > 0 ==> !Fresh(s.rows[|s.rows| - 1], env.now)
    requires ScrapeAndSave(GetLatestGoldPrice(s, env.latestRead).store, env.scrape).result.Ok?
    ensures var r := Get(s, env);
      && r.response.Served? && r.response.source == FromScraper
      && r.store.rows == s.rows + [Row(s.nextId, r.response.data.price, Unit, env.scrape.now)]
      && r.response.timestamp == env.scrape.now
      && IsDecimalText(r.response.data.price)
      && r.response.data.unit == Unit
  {
    var first := GetLatestGoldPrice(s, env.latestRead);
    if |s.rows| > 0 {
      LatestIsLast(s, env.latestRead);
    }
    ScrapeStoresLeftmostPrice(first.store, env.scrape);
  }

  /** A failed scrape answers from the table as the scrape left it, with no
      further write: a 500 exactly when it is empty, otherwise its last row,
      from the cache. Unless
      it was `close()` that failed, that table is the one before the scrape. */
  lemma RefreshFallsBack(t: Store, env: PriceEnv)
    requires Valid(t)
    requires ScrapeAndSave(t, env.scrape).result.Err?
    requires GetLatestGoldPrice(ScrapeAndSave(t, env.scrape).store, env.fallbackRead).result.Ok?
    ensures var r := Refresh(t, env);
      var rows := r.store.rows;
      && rows == ScrapeAndSave(t, env.scrape).store.rows
      && !r.response.Unhandled?
      && (r.response.ServerError? <==> |rows| == 0)
      && (r.response.Served? ==> ServesLastRow(rows, r.response))
      && (!(env.scrape.browser.Launched? && env.scrape.browser.closeError.Some?) ==> rows == t.rows)
  {
    var run := ScrapeAndSave(t, env.scrape);
    var r := Fallback(run.store, env.fallbackRead, run.result.error.Message());
    assert Refresh(t, env) == r;
  }

  /** When the latest row is missing or stale, scraping fails and both reads
      succeed, the answer is a 500 exactly when the table is empty after the
      scrape, and otherwise its last row, from the cache. Unless it was
      `close()` that failed, that table is the one the request started with. */
  lemma FailedScrapeFallsBack(s: Store, env: PriceEnv)
    requires Valid(s)
    requires GetLatestGoldPrice(s, env.latestRead).result.Ok?
    requires |s.rows| > 0 ==> !Fresh(s.rows[|s.rows| - 1], env.now)
    requires ScrapeAndSave(GetLatestGoldPrice(s, env.latestRead).store, env.scrape).result.Err?
    requires GetLatestGoldPrice(ScrapeAndSave(GetLatestGoldPrice(s, env.latestRead).store, env.scrape).store, env.fallbackRead).result.Ok?
    ensures var r := Get(s, env);
      var rows := r.store.rows;
      && (r.response.ServerError? <==> |rows| == 0)
      && (r.response.Served? ==> ServesLastRow(rows, r.response))
      && (!(env.scrape.browser.Launched? && env.scrape.browser.closeError.Some?) ==> rows == s.rows)
  {
    var first := GetLatestGoldPrice(s, env.latestRead);
    SameDataKeepsValid(s, first.store);
    if |s.rows| > 0 {
      LatestIsLast(s, env.latestRead);
    }
    assert first.result.value.None? || !Fresh(first.result.value.value, env.now);
    assert Get(s, env) == Refresh(first.store, env);
    RefreshFallsBack(first.store, env);
  }

  /** When `close()` throws after the scraped price was stored, the request
      still answers from the cache, and what it serves is that new row. */
  lemma CloseFailureServesNewRow(s: Store, env: PriceEnv, text: string, m: string)
    requires Valid(s)
    requires GetLatestGoldPrice(s, env.latestRead).result.Ok?
    requires |s.rows| > 0 ==> !Fresh(s.rows[|s.rows| - 1], env.now)
    requires env.scrape.browser == Launched(Rendered(text), Some(m))
    requires Extract(text).Some?
    requires var t := GetScraperUrl(GetLatestGoldPrice(s, env.latestRead).store, env.scrape.urlRead).store;
      AddGoldPrice(t, env.scrape.write, Extract(text).value.price, Unit, env.scrape.now).result.Ok?
    requires GetLatestGoldPrice(ScrapeAndSave(GetLatestGoldPrice(s, env.latestRead).store, env.scrape).store, env.fallbackRead).result.Ok?
    ensures var row := Row(s.nextId, Extract(text).value.price, Unit, env.scrape.now);
      var r := Get(s, env);
      && r.store.rows == s.rows + [row]
      && r.response == Served(FromCache, FromRow(row), env.scrape.now)
  {
    var first := GetLatestGoldPrice(s, env.latestRead);
    if |s.rows| > 0 {
      LatestIsLast(s, env.latestRead);
    }
    SameDataKeepsValid(s, first.store);
    assert first.result.value.None? || !Fresh(first.result.value.value, env.now);
    assert Get(s, env) == Refresh(first.store, env);
    CloseFailureAfterWrite(first.store, env.scrape, text, m);
    RefreshFallsBack(first.store, env);
  }
}

=== FILE: http.dfy ===
/** What the three route handlers share: the error text of a failed request. */
module Http {
  const InternalServerError: string := "Internal Server Error"

  /** `error.message || 'Internal Server Error'`: the thrown message, or the
      fallback text when the message is empty. */
  function ErrorText(message: string): (r: string)
    ensures r != ""
    ensures message != "" ==> r == message
    ensures message == "" ==> r == InternalServerError
  {
    if message != "" then message else InternalServerError
  }
}

=== FILE: js_text.dfy ===
/** The pieces of ECMAScript string semantics that the modelled code relies on:
    the white-space class shared by `String.prototype.trim`, the regular
    expression escape `\s` and `parseInt`, the `\d` digit class, `includes`,
    `trim`, and `parseInt(s, 10)` (section 19.2.5 of ECMA-262). */
module JsText {
  import opened Outcomes

  /** WhiteSpace (section 12.2 of ECMA-262) or LineTerminator (section 12.3):
      TAB, VT, FF, SP, NBSP, ZWNBSP, the Space_Separator code points, LF, CR,
      LS and PS. Below U+0021 these are SP and U+0009 to U+000D (TAB, LF, VT,
      FF, CR). */
  predicate IsSpace(c: char) {
    if c <= ' ' then c == ' ' || '\t' <= c <= '\r' else WideSpace(c)
  }

  /** The white-space code points above U+0020. */
  predicate WideSpace(c: char) {
    || c == '\U{00A0}' || c == '\U{1680}' || ('\U{2000}' <= c <= '\U{200A}')
    || c == '\U{2028}' || c == '\U{2029}' || c == '\U{202F}' || c == '\U{205F}'
    || c == '\U{3000}' || c == '\U{FEFF}'
  }

  /** The class `\d`: the ASCII decimal digits only. */
  predicate IsDigit(c: char) {
    '0' <= c <= '9'
  }

  predicate AllSpace(s: string) {
    forall k :: 0 <= k < |s| ==> IsSpace(s[k])
  }

  predicate AllDigits(s: string) {
    forall k :: 0 <= k < |s| ==> IsDigit(s[k])
  }

  /** The two character classes the model scans runs of: `\d` and `\s`. */
  datatype CharClass = Digits | Spaces {
    predicate Has(c: char) {
      match this
      case Digits => IsDigit(c)
      case Spaces => IsSpace(c)
    }
  }

  /** The length of the longest run of characters of class `p` that starts at `i`. */
  function RunLength(t: string, i: nat, p: CharClass): (n: nat)
    requires i <= |t|
    ensures i + n <= |t|
    decreases |t| - i
  {
    if i < |t| && p.Has(t[i]) then 1 + RunLength(t, i + 1, p) else 0
  }

  /** The run `RunLength` measures is all of class `p` and ends at the end of
      `t` or at a character outside the class. */
  lemma {:induction false} RunLengthRun(t: string, i: nat, p: CharClass)
    requires i <= |t|
    ensures var n := RunLength(t, i, p);
      && (forall k :: i <= k < i + n ==> p.Has(t[k]))
      && (i + n == |t| || !p.Has(t[i + n]))
    decreases |t| - i
  {
    if i < |t| && p.Has(t[i]) {
      RunLengthRun(t, i + 1, p);
    }
  }

  /** A run that is known to end at `i + n` has length `n`. */
  lemma {:induction false} RunLengthExact(t: string, i: nat, n: nat, p: CharClass)
    requires i + n <= |t|
    requires forall k :: i <= k < i + n ==> p.Has(t[k])
    requires i + n == |t| || !p.Has(t[i + n])
    ensures RunLength(t, i, p) == n
    decreases n
  {
    if n > 0 {
      RunLengthExact(t, i + 1, n - 1, p);
    }
  }

  /** `pattern` occurs in `s` at index `k`. */
  predicate OccursAt(s: string, k: nat, pattern: string) {
    k + |pattern| <= |s| && s[k..k + |pattern|] == pattern
  }

  /** `s.includes(pattern)`. */
  predicate Includes(s: string, pattern: string) {
    exists k: nat :: k <= |s| && OccursAt(s, k, pattern)
  }

  /** Removes leading white space (the start half of `trim`, and step 2 of `parseInt`). */
  function TrimStart(s: string): (r: string)
    ensures |r| <= |s| && r == s[|s| - |r|..]
    ensures AllSpace(s[..|s| - |r|])
    ensures r == [] || !IsSpace(r[0])
  {
    if |s| > 0 && IsSpace(s[0]) then
      var r := TrimStart(s[1..]);
      assert s[1..][..|s| - 1 - |r|] == s[1..|s| - |r|];
      SpacePrefixGrows(s, |s| - |r|);
      r
    else s
  }

  /** Removes trailing white space. */
  function TrimEnd(s: string): (r: string)
    ensures |r| <= |s| && r == s[..|r|]
    ensures AllSpace(s[|r|..])
    ensures r == [] || !IsSpace(r[|r| - 1])
  {
    if |s| > 0 && IsSpace(s[|s| - 1]) then
      var r := TrimEnd(s[..|s| - 1]);
      assert s[..|s| - 1][|r|..] == s[|r|..|s| - 1];
      SpaceSuffixGrows(s, |r|);
      r
    else s
  }

  lemma SpacePrefixGrows(s: string, n: nat)
    requires 0 < n <= |s| && IsSpace(s[0]) && AllSpace(s[1..n])
    ensures AllSpace(s[..n])
  {
    forall k | 0 <= k < n
      ensures IsSpace(s[..n][k])
    {
      if k > 0 {
        assert s[..n][k] == s[1..n][k - 1];
      }
    }
  }

  lemma SpaceSuffixGrows(s: string, m: nat)
    requires m < |s| && IsSpace(s[|s| - 1]) && AllSpace(s[m..|s| - 1])
    ensures AllSpace(s[m..])
  {
    forall j | 0 <= j < |s| - m
      ensures IsSpace(s[m..][j])
    {
      if j < |s| - 1 - m {
        assert s[m..][j] == s[m..|s| - 1][j];
      }
    }
  }

  /** `s.trim()`: `s` is white space, then the result, then white space, and the
      result neither starts nor ends with white space. */
  function Trim(s: string): (r: string)
    ensures exists a, b :: 0 <= a <= b <= |s| && r == s[a..b] && AllSpace(s[..a]) && AllSpace(s[b..])
    ensures r == [] || (!IsSpace(r[0]) && !IsSpace(r[|r| - 1]))
  {
    var t := TrimStart(s);
    var r := TrimEnd(t);
    TrimmedBothEnds(s, t, r);
    r
  }

  /** A suffix `t` of `s` after white space, cut to a prefix `r` before white
      space, is a slice of `s` with white space on both sides. */
  lemma TrimmedBothEnds(s: string, t: string, r: string)
    requires |t| <= |s| && t == s[|s| - |t|..] && AllSpace(s[..|s| - |t|])
    requires |r| <= |t| && r == t[..|r|] && AllSpace(t[|r|..])
    ensures exists a, b :: 0 <= a <= b <= |s| && r == s[a..b] && AllSpace(s[..a]) && AllSpace(s[b..])
  {
    var a := |s| - |t|;
    var b := a + |r|;
    assert r == s[a..b];
    assert s[b..] == t[|r|..];
  }

  /** The value of a string of decimal digits; the empty string has value 0. */
  function DecimalValue(ds: string): (n: nat)
    requires AllDigits(ds)
  {
    if |ds| == 0 then 0
    else DecimalValue(ds[..|ds| - 1]) * 10 + (ds[|ds| - 1] as int - '0' as int)
  }

  /** The decimal text of a natural number (what `String(n)` prints for a
      non-negative integer): digits only and no leading zero. */
  function DecimalText(n: nat): (r: string)
    ensures |r| > 0 && AllDigits(r)
    ensures r[0] == '0' ==> n == 0
  {
    var d := ['0' + ((n % 10) as char)];
    if n < 10 then d else DecimalText(n / 10) + d
  }

  /** The value of the longest digit prefix of `u`, or `None` when `u` does not
      start with a digit. */
  function LeadingDecimal(u: string): (r: Option<nat>)
  {
    var n := RunLength(u, 0, Digits);
    RunLengthRun(u, 0, Digits);
    if n == 0 then None else Some(DecimalValue(u[..n]))
  }

  /** `parseInt(s, 10)`, with `None` for NaN: leading white space is skipped, one
      sign is accepted, the longest digit prefix is read and the rest ignored.
      JavaScript numbers are doubles; the model keeps the exact integer. */
  function ParseInt(s: string): (r: Option<int>)
    ensures r.None? <==>
      var t := TrimStart(s);
      var u := if |t| > 0 && (t[0] == '-' || t[0] == '+') then t[1..] else t;
      u == [] || !IsDigit(u[0])
    ensures r.Some? && r.value < 0 ==> |TrimStart(s)| > 0 && TrimStart(s)[0] == '-'
  {
    ParseSigned(TrimStart(s))
  }

  /** Steps 3 to 16 of `parseInt` with radix 10, after the white space is gone. */
  function ParseSigned(t: string): (r: Option<int>)
  {
    var negative := |t| > 0 && t[0] == '-';
    var u := if |t| > 0 && (t[0] == '-' || t[0] == '+') then t[1..] else t;
    match LeadingDecimal(u)
    case None => None
    case Some(m) => Some(if negative then -(m as int) else m as int)
  }

  lemma LeadingDecimalReads(ds: string, rest: string)
    requires |ds| > 0 && AllDigits(ds)
    requires rest == [] || !IsDigit(rest[0])
    ensures LeadingDecimal(ds + rest) == Some(DecimalValue(ds))
  {
    var u := ds + rest;
    RunLengthExact(u, 0, |ds|, Digits);
    assert u[..|ds|] == ds;
  }

  lemma {:induction false} DecimalRoundTrip(n: nat)
    ensures DecimalValue(DecimalText(n)) == n
  {
    var d := ['0' + ((n % 10) as char)];
    if n >= 10 {
      DecimalRoundTrip(n / 10);
      var r := DecimalText(n / 10) + d;
      assert r[..|r| - 1] == DecimalText(n / 10);
    }
  }

  /** The optional sign `parseInt` accepts in front of the digits. */
  datatype Sign = Unsigned | Plus | Minus {
    function Text(): string {
      match this
      case Unsigned => ""
      case Plus => "+"
      case Minus => "-"
    }

    function Apply(m: nat): int {
      if Minus? then -(m as int) else m as int
    }
  }

  /** `parseInt` reads back what `String(n)` printed, whatever white space precedes
      it, whichever sign is written and whatever non-digit text follows it
      (`parseInt("7d", 10) == 7`, `parseInt(" -3", 10) == -3`). */
  lemma ParseIntReadsDecimal(lead: string, sign: Sign, n: nat, rest: string)
    requires AllSpace(lead)
    requires rest == [] || !IsDigit(rest[0])
    ensures ParseInt(lead + (sign.Text() + (DecimalText(n) + rest))) == Some(sign.Apply(n))
  {
    ParseIntReadsDigits(lead, sign, DecimalText(n), rest);
    DecimalRoundTrip(n);
  }

  lemma ParseIntReadsDigits(lead: string, sign: Sign, ds: string, rest: string)
    requires AllSpace(lead)
    requires |ds| > 0 && AllDigits(ds)
    requires rest == [] || !IsDigit(rest[0])
    ensures ParseInt(lead + (sign.Text() + (ds + rest))) == Some(sign.Apply(DecimalValue(ds)))
  {
    var u := ds + rest;
    var body := sign.Text() + u;
    ParseSignedSkipsSign(sign, u);
    LeadingDecimalReads(ds, rest);
    ParseIntSkipsSpace(lead, body);
  }

  lemma ParseSignedSkipsSign(sign: Sign, u: string)
    requires u != [] && IsDigit(u[0])
    ensures (sign.Text() + u)[0] == if sign.Unsigned? then u[0] else sign.Text()[0]
    ensures ParseSigned(sign.Text() + u) ==
      match LeadingDecimal(u)
      case None => None
      case Some(m) => Some(sign.Apply(m))
  {
    var body := sign.Text() + u;
    if sign.Unsigned? {
      assert body == u;
    } else {
      assert body[1..] == u;
    }
  }

  lemma ParseIntSkipsSpace(lead: string, body: string)
    requires AllSpace(lead)
    requires body == [] || !IsSpace(body[0])
    ensures ParseInt(lead + body) == ParseSigned(body)
  {
    TrimStartSkipsSpace(lead, body);
  }

  lemma {:induction false} TrimStartSkipsSpace(lead: string, body: string)
    requires AllSpace(lead)
    requires body == [] || !IsSpace(body[0])
    ensures TrimStart(lead + body) == body
    decreases |lead|
  {
    if |lead| > 0 {
      assert (lead + body)[1..] == lead[1..] + body;
      TrimStartSkipsSpace(lead[1..], body);
    }
  }
}

=== FILE: json.dfy ===
/** The JSON values a request body parses to, and the two JavaScript operations
    the route handlers apply to them: reading a property and testing truthiness. */
module Json {
  import opened Outcomes

  /** A parsed JSON value. Numbers keep only their integer value: every use in
      the handlers depends on whether a number is zero and, for the stored cron
      expression, on how zero prints. */
  datatype Json =
    | JNull
    | JBool(b: bool)
    | JNumber(n: int)
    | JString(s: string)
    | JArray(items: seq<Json>)
    | JObject(members: map<string, Json>)

  /** `v[key]` for a key that no prototype defines: the member of an object,
      `undefined` (`None`) for anything else or a missing member. */
  function Member(v: Json, key: string): (r: Option<Json>)
    ensures r.Some? <==> v.JObject? && key in v.members
    ensures r.Some? ==> r.value == v.members[key]
  {
    match v
    case JObject(m) => if key in m then Some(m[key]) else None
    case _ => None
  }

  /** JavaScript truthiness of a value that may be `undefined`: `undefined`,
      `null`, `false`, zero and the empty string are falsy; arrays and objects,
      even empty ones, are truthy. */
  predicate Truthy(v: Option<Json>) {
    match v
    case None => false
    case Some(JNull) => false
    case Some(JBool(b)) => b
    case Some(JNumber(n)) => n != 0
    case Some(JString(s)) => s != ""
    case Some(JArray(_)) => true
    case Some(JObject(_)) => true
  }

  /** `typeof v === 'string'`. */
  predicate IsString(v: Option<Json>) {
    v.Some? && v.value.JString?
  }

  /** `typeof v === 'boolean'`. */
  predicate IsBoolean(v: Option<Json>) {
    v.Some? && v.value.JBool?
  }
}

=== FILE: outcomes.dfy ===
/** Failure-carrying values shared by every module of the model: an optional
    value (a JavaScript `null`/`undefined` or a present value) and the result of
    an operation that can throw. */
module Outcomes {

  /** `None` stands for JavaScript's `null` or `undefined`. */
  datatype Option<+T> = None | Some(value: T) {

    /** The value, or `default` when there is none (`x ?? default`). */
    function GetOr(default: T): T {
      match this
      case Some(v) => v
      case None => default
    }
  }

  /** The outcome of an operation that either returns a value or throws `error`. */
  datatype Result<+T, +E> = Ok(value: T) | Err(error: E)
}

=== FILE: price_match.dfy ===
/** The price extraction of `lib/scraper.ts`: `bodyText.match(/(\d+(?:\.\d+)?)\s*元\/克/)`
    as a pure function of the page text, with the regular-expression semantics of
    section 22.2 of ECMA-262 (no flags: the leftmost match wins; `\d` is ASCII;
    `\s` is WhiteSpace or LineTerminator).

    Backtracking never changes the outcome at a given start position: every
    part of the pattern is followed by a character that part cannot consume, so
    a match exists only with each part as long as possible. `MatchAt` is that
    greedy scan; `Shaped` is the pattern read as a language, and the lemmas
    show the two agree. */
module PriceMatch {
  import opened Outcomes
  import opened JsText

  /** The unit suffix, also the marker the page is waited on for. */
  const Unit: string := "元/克"

  /** What the page script returns on a match: the captured number, the unit
      constant and the whole matched text. */
  datatype Extracted = Extracted(price: string, unit: string, fullText: string)

  /** A match of the pattern in `t`: `t[start..digitsEnd]` is the captured
      number and `t[start..end]` the whole match. */
  datatype Span = Span(start: nat, digitsEnd: nat, end: nat)

  /** `s` is, in full, one or more digits (`a` of them), optionally a point and one
      or more digits (up to `b`), white space (up to `c`) and the unit. */
  predicate Shaped(s: string, a: nat, b: nat, c: nat) {
    && 0 < a <= b <= c && c + |Unit| == |s|
    && (forall k :: 0 <= k < a ==> IsDigit(s[k]))
    && (b == a || (a + 2 <= b && s[a] == '.' && forall k :: a < k < b ==> IsDigit(s[k])))
    && (forall k :: b <= k < c ==> IsSpace(s[k]))
    && s[c..] == Unit
  }

  /** `s` belongs to the language of the pattern. */
  ghost predicate InPattern(s: string) {
    exists a: nat, b: nat, c: nat :: Shaped(s, a, b, c)
  }

  /** `t[i..j]` matches the pattern. */
  ghost predicate MatchesAt(t: string, i: nat, j: nat) {
    i <= j <= |t| && InPattern(t[i..j])
  }

  /** A decimal number as the capture group accepts it: digits, then optionally a
      point and more digits. */
  predicate IsDecimalText(p: string) {
    || (|p| > 0 && AllDigits(p))
    || exists a: nat :: 0 < a < |p| - 1 && PointAt(p, a)
  }

  /** `p` is digits with a single point at index `a` and digits on both sides. */
  predicate PointAt(p: string, a: nat)
    requires a < |p|
  {
    p[a] == '.' && AllDigits(p[..a]) && AllDigits(p[a + 1..])
  }

  /** The end of the optional `(?:\.\d+)` group that starts at `p`. */
  function FractionEnd(t: string, p: nat): (q: nat)
    requires p <= |t|
    ensures p <= q <= |t|
  {
    if p < |t| && t[p] == '.' && RunLength(t, p + 1, Digits) > 0 then p + 1 + RunLength(t, p + 1, Digits)
    else p
  }

  /** The pattern tried at index `i` only. */
  function MatchAt(t: string, i: nat): (r: Option<Span>)
    requires i <= |t|
    ensures r.Some? ==> r.value.start == i && i < r.value.digitsEnd <= r.value.end <= |t|
  {
    var d := RunLength(t, i, Digits);
    if d == 0 then None
    else
      var q := FractionEnd(t, i + d);
      var w := q + RunLength(t, q, Spaces);
      if OccursAt(t, w, Unit) then Some(Span(i, q, w + |Unit|)) else None
  }

  /** The scan finds no match starting in `[i, j)`. */
  predicate NoMatchIn(t: string, i: nat, j: nat)
    requires i <= j <= |t|
    decreases j - i
  {
    i == j || (MatchAt(t, i).None? && NoMatchIn(t, i + 1, j))
  }

  /** The leftmost match at or after index `i`. */
  function FirstMatchFrom(t: string, i: nat): (r: Option<Span>)
    requires i <= |t|
    ensures r.None? ==> NoMatchIn(t, i, |t|)
    ensures r.Some? ==>
      && i <= r.value.start < |t|
      && MatchAt(t, r.value.start) == r
      && NoMatchIn(t, i, r.value.start)
    decreases |t| - i
  {
    if i == |t| then None
    else match MatchAt(t, i)
      case Some(sp) => Some(sp)
      case None => FirstMatchFrom(t, i + 1)
  }

  /** The page script: the first match as `{price, unit, fullText}`, or null. */
  function Extract(text: string): (r: Option<Extracted>)
    ensures r.Some? ==> r.value.unit == Unit
  {
    match FirstMatchFrom(text, 0)
    case None => None
    case Some(sp) => Some(Extracted(text[sp.start..sp.digitsEnd], Unit, text[sp.start..sp.end]))
  }

  // ---------------------------------------------------------------------------
  // The scan agrees with the language

  /** `Shaped` in the coordinates of the whole text: the digits are `t[i..a]`,
      the fraction `t[a..b]`, the white space `t[b..c]` and the unit starts at `c`. */
  predicate ShapedAt(t: string, i: nat, a: nat, b: nat, c: nat) {
    && i < a <= b <= c && c + |Unit| <= |t|
    && (forall k :: i <= k < a ==> IsDigit(t[k]))
    && (b == a || (a + 2 <= b && t[a] == '.' && forall k :: a < k < b ==> IsDigit(t[k])))
    && (forall k :: b <= k < c ==> IsSpace(t[k]))
    && OccursAt(t, c, Unit)
  }

  /** A slice that is `Shaped` is `ShapedAt` in the whole text. */
  lemma SliceShapedAt(t: string, i: nat, j: nat, a: nat, b: nat, c: nat)
    requires i <= j <= |t| && Shaped(t[i..j], a, b, c)
    ensures ShapedAt(t, i, i + a, i + b, i + c) && j == i + c + |Unit|
  {
    var s := t[i..j];
    assert forall k :: 0 <= k < |s| ==> s[k] == t[i + k];
    assert s[c..] == t[i + c..i + c + |Unit|];
  }

  /** A `ShapedAt` stretch of the text, cut out, is `Shaped`. */
  lemma ShapedAtSlice(t: string, i: nat, a: nat, b: nat, c: nat)
    requires ShapedAt(t, i, a, b, c)
    ensures Shaped(t[i..c + |Unit|], a - i, b - i, c - i)
  {
    var s := t[i..c + |Unit|];
    assert forall k :: 0 <= k < |s| ==> s[k] == t[i + k];
    assert s[c - i..] == t[c..c + |Unit|];
  }

  /** The character after each part of a shaped match stops that part. */
  lemma ShapedStops(t: string, i: nat, a: nat, b: nat, c: nat)
    requires ShapedAt(t, i, a, b, c)
    ensures !IsDigit(t[a])
    ensures a < b ==> !IsDigit(t[b])
    ensures a == b ==> t[a] != '.'
    ensures !IsSpace(t[c])
  {
    assert t[c] == Unit[0];
  }

  /** Where the three scans of `MatchAt` stop, for a match it finds. */
  lemma MatchAtParts(t: string, i: nat)
    requires i <= |t| && MatchAt(t, i).Some?
    ensures var sp := MatchAt(t, i).value;
      && RunLength(t, i, Digits) > 0
      && sp.digitsEnd == FractionEnd(t, i + RunLength(t, i, Digits))
      && sp.end - |Unit| - sp.digitsEnd == RunLength(t, sp.digitsEnd, Spaces)
      && OccursAt(t, sp.end - |Unit|, Unit)
  {
  }

  /** Three runs that end where the scans stop form a shaped match. */
  lemma RunsShaped(t: string, i: nat, a: nat, b: nat, c: nat)
    requires i < a <= b <= c && c + |Unit| <= |t|
    requires RunLength(t, i, Digits) == a - i
    requires FractionEnd(t, a) == b
    requires RunLength(t, b, Spaces) == c - b
    requires OccursAt(t, c, Unit)
    ensures ShapedAt(t, i, a, b, c)
  {
    RunLengthRun(t, i, Digits);
    if a < b {
      RunLengthRun(t, a + 1, Digits);
    }
    RunLengthRun(t, b, Spaces);
  }

  /** What `MatchAt` finds is shaped like the pattern. */
  lemma MatchAtShaped(t: string, i: nat)
    requires i <= |t| && MatchAt(t, i).Some?
    ensures var sp := MatchAt(t, i).value;
      ShapedAt(t, i, i + RunLength(t, i, Digits), sp.digitsEnd, sp.end - |Unit|)
  {
    var sp := MatchAt(t, i).value;
    MatchAtParts(t, i);
    RunsShaped(t, i, i + RunLength(t, i, Digits), sp.digitsEnd, sp.end - |Unit|);
  }

  /** A shaped stretch captures a decimal number. */
  lemma ShapedDecimal(t: string, i: nat, a: nat, b: nat, c: nat)
    requires ShapedAt(t, i, a, b, c)
    ensures IsDecimalText(t[i..b])
  {
    var p := t[i..b];
    if b == a {
      assert AllDigits(p);
    } else {
      assert PointAt(p, a - i) by {
        assert p[..a - i] == t[i..a];
        assert p[a - i + 1..] == t[a + 1..b];
      }
    }
  }

  /** A shaped stretch is the capture, white space and the unit. */
  lemma ShapedGap(t: string, i: nat, a: nat, b: nat, e: nat)
    requires e >= |Unit| && ShapedAt(t, i, a, b, e - |Unit|)
    ensures AllSpace(t[b..e - |Unit|])
    ensures t[i..e] == t[i..b] + t[b..e - |Unit|] + Unit
  {
    var c := e - |Unit|;
    assert t[c..e] == Unit;
    SliceSplit(t, i, b, c, e);
  }

  /** A shaped stretch matches the pattern, captures a decimal number and is
      that number, white space and the unit. */
  lemma ShapedSound(t: string, i: nat, a: nat, b: nat, e: nat)
    requires e >= |Unit| && ShapedAt(t, i, a, b, e - |Unit|)
    ensures && MatchesAt(t, i, e)
            && IsDecimalText(t[i..b])
            && t[i..e] == t[i..b] + t[b..e - |Unit|] + Unit
            && AllSpace(t[b..e - |Unit|])
  {
    ShapedAtSlice(t, i, a, b, e - |Unit|);
    ShapedDecimal(t, i, a, b, e - |Unit|);
    ShapedGap(t, i, a, b, e);
  }

  /** What `MatchAt` finds has the shape of the pattern, and its capture is a decimal. */
  lemma MatchAtSound(t: string, i: nat)
    requires i <= |t| && MatchAt(t, i).Some?
    ensures var sp := MatchAt(t, i).value;
      && MatchesAt(t, i, sp.end)
      && IsDecimalText(t[i..sp.digitsEnd])
      && t[i..sp.end] == t[i..sp.digitsEnd] + t[sp.digitsEnd..sp.end - |Unit|] + Unit
      && AllSpace(t[sp.digitsEnd..sp.end - |Unit|])
  {
    var sp := MatchAt(t, i).value;
    MatchAtShaped(t, i);
    ShapedSound(t, i, i + RunLength(t, i, Digits), sp.digitsEnd, sp.end);
  }

  lemma SliceSplit(t: string, i: nat, q: nat, c: nat, e: nat)
    requires i <= q <= c <= e <= |t|
    ensures t[i..e] == t[i..q] + t[q..c] + t[c..e]
  {
  }

  /** Any match of the pattern starting at `i` is the one `MatchAt` finds. */
  lemma MatchAtComplete(t: string, i: nat, j: nat)
    requires MatchesAt(t, i, j)
    ensures MatchAt(t, i).Some? && MatchAt(t, i).value.end == j
  {
    var a: nat, b: nat, c: nat :| Shaped(t[i..j], a, b, c);
    SliceShapedAt(t, i, j, a, b, c);
    ShapedScan(t, i, i + a, i + b, i + c);
  }

  lemma ShapedScan(t: string, i: nat, a: nat, b: nat, c: nat)
    requires ShapedAt(t, i, a, b, c)
    ensures MatchAt(t, i) == Some(Span(i, b, c + |Unit|))
  {
    ShapedStops(t, i, a, b, c);
    DigitRunStops(t, i, a);
    FractionStops(t, a, b);
    SpaceRunStops(t, b, c);
    ScanFromRuns(t, i, a, b, c);
  }

  /** `MatchAt` put together from where its three scans stop. */
  lemma ScanFromRuns(t: string, i: nat, a: nat, b: nat, c: nat)
    requires i < a <= b <= c && c + |Unit| <= |t|
    requires RunLength(t, i, Digits) == a - i
    requires FractionEnd(t, a) == b
    requires RunLength(t, b, Spaces) == c - b
    requires OccursAt(t, c, Unit)
    ensures MatchAt(t, i) == Some(Span(i, b, c + |Unit|))
  {
    var d := RunLength(t, i, Digits);
    assert i + d == a;
    var q := FractionEnd(t, i + d);
    assert q == b;
    var w := q + RunLength(t, q, Spaces);
    assert w == c;
  }

  lemma DigitRunStops(t: string, i: nat, a: nat)
    requires i < a < |t|
    requires forall k :: i <= k < a ==> IsDigit(t[k])
    requires !IsDigit(t[a])
    ensures RunLength(t, i, Digits) == a - i
  {
    RunLengthExact(t, i, a - i, Digits);
  }

  lemma FractionStops(t: string, a: nat, b: nat)
    requires a <= b < |t|
    requires b == a || (a + 2 <= b && t[a] == '.' && forall k :: a < k < b ==> IsDigit(t[k]))
    requires a < b ==> !IsDigit(t[b])
    requires a == b ==> t[a] != '.'
    ensures FractionEnd(t, a) == b
  {
    if a < b {
      RunLengthExact(t, a + 1, b - a - 1, Digits);
    }
  }

  lemma SpaceRunStops(t: string, b: nat, c: nat)
    requires b <= c < |t|
    requires forall k :: b <= k < c ==> IsSpace(t[k])
    requires !IsSpace(t[c])
    ensures RunLength(t, b, Spaces) == c - b
  {
    RunLengthExact(t, b, c - b, Spaces);
  }

  /** Where the scan finds nothing, the pattern matches nothing. */
  lemma NoScanNoMatch(t: string, i: nat)
    requires i <= |t| && MatchAt(t, i).None?
    ensures forall j :: !MatchesAt(t, i, j)
  {
    forall j | MatchesAt(t, i, j)
      ensures false
    {
      MatchAtComplete(t, i, j);
    }
  }

  lemma {:induction false} NoMatchInMeansNone(t: string, i: nat, j: nat)
    requires i <= j <= |t| && NoMatchIn(t, i, j)
    ensures forall k, e :: i <= k < j ==> !MatchesAt(t, k, e)
    decreases j - i
  {
    if i < j {
      NoScanNoMatch(t, i);
      NoMatchInMeansNone(t, i + 1, j);
    }
  }

  /** The first match found matches the pattern, and no match of the pattern
      starts before it. */
  lemma FirstMatchIsLeftmost(t: string)
    requires FirstMatchFrom(t, 0).Some?
    ensures var sp := FirstMatchFrom(t, 0).value;
      && MatchesAt(t, sp.start, sp.end)
      && forall i, j :: 0 <= i < sp.start ==> !MatchesAt(t, i, j)
  {
    var sp := FirstMatchFrom(t, 0).value;
    MatchAtSound(t, sp.start);
    NoMatchInMeansNone(t, 0, sp.start);
  }

  /** The scan finds nothing exactly when no substring of the text matches. */
  lemma FirstMatchNone(t: string)
    ensures FirstMatchFrom(t, 0).None? <==> forall i, j :: 0 <= i <= |t| ==> !MatchesAt(t, i, j)
  {
    var r := FirstMatchFrom(t, 0);
    if r.None? {
      NoMatchInMeansNone(t, 0, |t|);
      assert MatchAt(t, |t|).None?;
      NoScanNoMatch(t, |t|);
    } else {
      MatchAtSound(t, r.value.start);
    }
  }

  /** The page script returns a decimal number, the unit constant, and as full
      text the number, white space and the unit. */
  lemma ExtractShape(text: string)
    requires Extract(text).Some?
    ensures var e := Extract(text).value;
      && e.unit == Unit
      && IsDecimalText(e.price)
      && exists gap :: AllSpace(gap) && e.fullText == e.price + gap + Unit
  {
    var sp := FirstMatchFrom(text, 0).value;
    assert Extract(text).value == Extracted(text[sp.start..sp.digitsEnd], Unit, text[sp.start..sp.end]);
    MatchAtSound(text, sp.start);
    var gap := text[sp.digitsEnd..sp.end - |Unit|];
    assert AllSpace(gap);
  }

  /** `t[i..j]` matches the pattern and no match starts before `i`. */
  ghost predicate LeftmostMatch(t: string, i: nat, j: nat) {
    MatchesAt(t, i, j) && forall i', j' :: 0 <= i' < i ==> !MatchesAt(t, i', j')
  }

  /** Where the page script finds something, its full text is the leftmost
      match of the pattern, found where the scan stopped. */
  lemma ExtractFound(text: string)
    requires Extract(text).Some?
    ensures var e := Extract(text).value;
      var i := FirstMatchFrom(text, 0).value.start;
      i <= |text| && OccursAt(text, i, e.fullText) && LeftmostMatch(text, i, i + |e.fullText|)
  {
    var sp := FirstMatchFrom(text, 0).value;
    assert Extract(text).value.fullText == text[sp.start..sp.end];
    FirstMatchIsLeftmost(text);
  }

  /** The page script returns null exactly when the pattern matches nowhere in
      the text. */
  lemma ExtractNullIffNoMatch(text: string)
    ensures Extract(text).None? <==> forall i, j :: 0 <= i <= |text| ==> !MatchesAt(text, i, j)
  {
    FirstMatchNone(text);
  }

  /** A page text the pattern matches contains the unit, so the wait for the
      unit comes back before the match is looked for. */
  lemma ExtractNeedsUnit(text: string)
    requires Extract(text).Some?
    ensures Includes(text, Unit)
  {
    var sp := FirstMatchFrom(text, 0).value;
    MatchAtParts(text, sp.start);
    var c := sp.end - |Unit|;
    assert c <= |text| && OccursAt(text, c, Unit);
  }
}

=== FILE: scraper.dfy ===
/** `scrapeAndSave` of `lib/scraper.ts`: read the configured URL, render the page
    in a headless browser, wait for the unit to appear, extract the first price
    and store it with the current time.

    The browser is foreign code: what it does with the page is an input
    (`Browser`), as are the clock and what the database does on each of the two
    calls. The model records whether a browser was launched and whether it was
    closed, which is all the `finally` block is about. */
module Scraper {
  import opened Outcomes
  import opened JsText
  import opened PriceMatch
  import opened Db

  /** How long `waitForFunction` waits for the unit to appear. */
  const WaitTimeoutMillis: nat := 30000

  const PatternNotFoundMessage: string := "Price pattern not found on page"

  /** What the navigation to the URL gives: an error, or a page whose
      `document.body.innerText` is `bodyText` once rendering has settled. */
  datatype PageOutcome = NavigationFailed(message: string) | Rendered(bodyText: string)

  /** `chromium.launch` throws, or gives a browser whose page ends up as `page`
      and whose `close()` in the `finally` block either succeeds (`None`) or
      throws with a message. */
  datatype Browser = LaunchFailed(message: string) | Launched(page: PageOutcome, closeError: Option<string>)

  /** Everything `scrapeAndSave` depends on outside the store. */
  datatype ScrapeEnv = ScrapeEnv(urlRead: Backend, browser: Browser, now: int, write: Backend)

  /** Why a scrape throws. */
  datatype ScrapeError =
    | StoreError(error: DbError)
    | BrowserError(message: string)
    | WaitTimedOut
    | PatternNotFound
  {
    /** The `message` of the error thrown. */
    function Message(): string {
      match this
      case StoreError(e) => e.message
      case BrowserError(m) => m
      case WaitTimedOut => "Timeout " + DecimalText(WaitTimeoutMillis) + "ms exceeded."
      case PatternNotFound => PatternNotFoundMessage
    }
  }

  /** What `scrapeAndSave` resolves to: the extracted data and the timestamp. */
  datatype Scraped = Scraped(data: Extracted, timestamp: int)

  /** The store and the outcome once the `try` block is over, before `finally`. */
  datatype PageRun = PageRun(store: Store, result: Result<Scraped, ScrapeError>)

  /** One run: the store afterwards, the URL used, whether a browser was
      launched and closed, and the outcome. */
  datatype ScrapeRun = ScrapeRun(
    store: Store,
    url: string,
    launched: bool,
    closed: bool,
    result: Result<Scraped, ScrapeError>)

  /** The URL the scraper navigates to: what `getScraperUrl` returns, or the
      default when the read throws or returns an empty string. */
  function ScrapeUrl(read: Reply<string>): (url: string)
    ensures url != ""
    ensures read.result.Err? ==> url == DefaultScraperUrl
    ensures read.result.Ok? && read.result.value != "" ==> url == read.result.value
  {
    if read.result.Ok? && read.result.value != "" then read.result.value else DefaultScraperUrl
  }

  /** What happens on the rendered page: the wait for the unit, then the
      extraction. */
  function Evaluate(bodyText: string): (r: Result<Extracted, ScrapeError>)
    ensures r.Ok? <==> Extract(bodyText).Some?
    ensures r.Ok? ==> r.value == Extract(bodyText).value
    ensures r.Err? ==> (r.error == WaitTimedOut <==> !Includes(bodyText, Unit))
    ensures r.Err? ==> r.error == WaitTimedOut || r.error == PatternNotFound
  {
    if !Includes(bodyText, Unit) then
      assert Extract(bodyText).None? by {
        if Extract(bodyText).Some? {
          ExtractNeedsUnit(bodyText);
        }
      }
      Err(WaitTimedOut)
    else match Extract(bodyText)
      case None => Err(PatternNotFound)
      case Some(e) => Ok(e)
  }

  /** Lines 21-46 on a launched browser: navigate, wait and extract, then store
      the price with the clock reading. */
  function OnPage(t: Store, page: PageOutcome, now: int, write: Backend): (r: PageRun)
    ensures r.result.Ok? ==>
      && page.Rendered? && Extract(page.bodyText) == Some(r.result.value.data)
      && r.result.value.timestamp == now
      && r.store.rows == t.rows + [Row(t.nextId, r.result.value.data.price, Unit, now)]
    ensures r.result.Ok? <==> page.Rendered? && Extract(page.bodyText).Some? && !FailsWithin(t, write, 2)
    ensures r.result.Err? && page.Rendered? && Extract(page.bodyText).Some? ==>
      r.result.error == StoreError(CallError(t, write))
    ensures r.result.Err? ==> r.store.rows == t.rows
    ensures r.store.nextId >= t.nextId
    ensures Valid(t) ==> Valid(r.store)
  {
    match page
    case NavigationFailed(m) => PageRun(t, Err(BrowserError(m)))
    case Rendered(text) =>
      match Evaluate(text)
      case Err(e) => PageRun(t, Err(e))
      case Ok(data) =>
        var add := AddGoldPrice(t, write, data.price, data.unit, now);
        match add.result
        case Err(e) => PageRun(add.store, Err(StoreError(e)))
        case Ok(_) => PageRun(add.store, Ok(Scraped(data, now)))
  }

  /** `scrapeAndSave()`. A browser that was launched is closed whatever happened
      on the page; an error thrown by `close()` replaces the outcome of the
      `try` block, even after the row was written. */
  function ScrapeAndSave(s: Store, env: ScrapeEnv): (r: ScrapeRun)
    ensures r.url != ""
    ensures r.url == DefaultScraperUrl || (ScrapeUrlKey in s.config && r.url == s.config[ScrapeUrlKey])
    ensures r.closed <==> r.launched
    ensures r.launched <==> env.browser.Launched?
    ensures r.result.Ok? ==>
      && env.browser.Launched? && env.browser.closeError.None? && env.browser.page.Rendered?
      && Extract(env.browser.page.bodyText) == Some(r.result.value.data)
      && r.result.value.timestamp == env.now
    ensures r.result.Ok? <==>
      && env.browser.Launched? && env.browser.closeError.None? && env.browser.page.Rendered?
      && Extract(env.browser.page.bodyText).Some?
      && !FailsWithin(GetScraperUrl(s, env.urlRead).store, env.write, 2)
    ensures r.result.Ok? ==> exists id :: r.store.rows == s.rows + [Row(id, r.result.value.data.price, Unit, env.now)]
    ensures env.browser.Launched? && env.browser.closeError.Some? ==>
      r.result == Err(BrowserError(env.browser.closeError.value))
    ensures r.result.Err? && !(env.browser.Launched? && env.browser.closeError.Some?) ==> r.store.rows == s.rows
    ensures s.rows <= r.store.rows && |r.store.rows| <= |s.rows| + 1
    ensures r.store.nextId >= s.nextId
    ensures Valid(s) ==> Valid(r.store)
  {
    var read := GetScraperUrl(s, env.urlRead);
    var url := ScrapeUrl(read);
    var t := read.store;
    match env.browser
    case LaunchFailed(m) => ScrapeRun(t, url, false, false, Err(BrowserError(m)))
    case Launched(page, closeError) =>
      var run := OnPage(t, page, env.now, env.write);
      var result := if closeError.Some? then Err(BrowserError(closeError.value)) else run.result;
      ScrapeRun(run.store, url, true, true, result)
  }

  // ---------------------------------------------------------------------------
  // Properties of a scrape

  /** A successful scrape stores exactly one new row, with the next id, the
      captured number of the leftmost match as its price and the unit. */
  lemma ScrapeStoresLeftmostPrice(s: Store, env: ScrapeEnv)
    requires ScrapeAndSave(s, env).result.Ok?
    ensures var r := ScrapeAndSave(s, env);
      var price := r.result.value.data.price;
      && r.store.rows == s.rows + [Row(s.nextId, price, Unit, env.now)]
      && IsDecimalText(price)
      && r.result.value.data.unit == Unit
  {
    var text := env.browser.page.bodyText;
    ExtractShape(text);
  }

  /** A page without the unit times out; a page with the unit but no number
      before it is reported as a missing pattern; neither stores anything. An
      error from `close()` takes the place of either. */
  lemma ScrapeFailures(s: Store, env: ScrapeEnv, text: string, closeError: Option<string>)
    requires env.browser == Launched(Rendered(text), closeError)
    ensures var r := ScrapeAndSave(s, env);
      var closed := if closeError.Some? then Err(BrowserError(closeError.value)) else r.result;
      && (!Includes(text, Unit) ==> r.result == closed && (closeError.None? ==> r.result == Err(WaitTimedOut)))
      && (Includes(text, Unit) && (forall i, j :: 0 <= i <= |text| ==> !MatchesAt(text, i, j)) ==>
            r.result == closed && (closeError.None? ==> r.result == Err(PatternNotFound)))
      && (Extract(text).None? ==> r.store.rows == s.rows)
  {
    ExtractNullIffNoMatch(text);
  }

  /** When `close()` throws after the price was stored, `scrapeAndSave` rejects
      with the close error although the new row is already in the table. */
  lemma CloseFailureAfterWrite(s: Store, env: ScrapeEnv, text: string, m: string)
    requires env.browser == Launched(Rendered(text), Some(m))
    requires Extract(text).Some?
    requires AddGoldPrice(GetScraperUrl(s, env.urlRead).store, env.write, Extract(text).value.price, Unit, env.now).result.Ok?
    ensures var r := ScrapeAndSave(s, env);
      && r.result == Err(BrowserError(m))
      && r.store.rows == s.rows + [Row(s.nextId, Extract(text).value.price, Unit, env.now)]
  {
    ExtractNeedsUnit(text);
  }

  /** The URL the scrape uses is the one `updateScraperUrl` stored last, when that
      was non-empty and the read succeeds. */
  lemma ScrapeUsesStoredUrl(s: Store, b: Backend, u: string, env: ScrapeEnv)
    requires u != ""
    requires UpdateScraperUrl(s, b, u).result.Ok?
    requires GetScraperUrl(UpdateScraperUrl(s, b, u).store, env.urlRead).result.Ok?
    ensures ScrapeAndSave(UpdateScraperUrl(s, b, u).store, env).url == u
  {
  }

  /** A failing URL read does not stop the scrape: the default URL is used. */
  lemma ScrapeFallsBackToDefault(s: Store, env: ScrapeEnv)
    requires GetScraperUrl(s, env.urlRead).result.Err?
    ensures ScrapeAndSave(s, env).url == DefaultScraperUrl
  {
  }
}

=== FILE: settings_route.dfy ===
/** `GET` and `POST /api/settings` of `app/api/settings/route.ts`: read the
    scraper URL and the cron configuration; validate and save a new URL and
    cron configuration, then start or stop the in-process cron task to match.

    The request body arrives as a parse result; what the database does on each
    call and node-cron's validator are inputs. */
module SettingsRoute {
  import opened Outcomes
  import opened JsText
  import opened Db
  import opened Json
  import opened Cron
  import opened Http

  const InvalidScrapeUrl: string := "Invalid scrapeUrl"
  const InvalidCronConfig: string := "Invalid cron config"
  const StartFailedPrefix: string := "Settings saved but failed to start cron: "

  /** The `TypeError` V8 throws when a `null` body is destructured. */
  const NullBodyMessage: string := "Cannot destructure property 'scrapeUrl' of 'body' as it is null."

  /** The answer to `POST`: `{success: true}`, the same with a warning, a 400 or
      a 500 with its error text. */
  datatype PostResponse =
    | Saved
    | SavedWithWarning(warning: string)
    | BadRequest(reason: string)
    | PostFailed(error: string)

  datatype PostEnv = PostEnv(urlWrite: Backend, cronWrite: Backend, validate: Validator)

  /** The store and the cron state after a request, and the answer. */
  datatype PostRun = PostRun(store: Store, scheduler: Scheduler, response: PostResponse)

  /** The `data` of a successful `GET`. */
  datatype Settings = Settings(scrapeUrl: string, cron: CronConfig)

  datatype GetRun = GetRun(store: Store, response: Result<Settings, string>)

  /** The check of line 38: a truthy `cron` needs a boolean `enabled`, and a
      truthy `expression` must be a string. */
  predicate CronAccepted(cron: Option<Json>) {
    !Truthy(cron) ||
      (IsBoolean(Member(cron.value, "enabled")) &&
        (!Truthy(Member(cron.value, "expression")) || IsString(Member(cron.value, "expression"))))
  }

  /** The `expression` argument of `saveCronConfig` as it reaches the table:
      `?? ''` replaces only `null` and `undefined`, and the driver writes the
      falsy `false` and `0` that pass the check as the text `String` gives. */
  function SavedExpression(e: Option<Json>): (r: Option<string>)
    requires !Truthy(e) || IsString(e)
    ensures r.None? <==> e.None? || e == Some(JNull)
    ensures IsString(e) ==> r == Some(e.value.s)
    ensures e == Some(JBool(false)) ==> r == Some("false")
    ensures e == Some(JNumber(0)) ==> r == Some("0")
  {
    match e
    case None => None
    case Some(JNull) => None
    case Some(JString(s)) => Some(s)
    case Some(JBool(_)) => Some("false")
    case Some(JNumber(_)) => Some("0")
  }

  /** `POST(request)`: a body that does not parse or is `null` gives a 500, a
      body that fails the checks of lines 35-40 a 400, and any other is saved. */
  function Post(st: Store, sch: Scheduler, body: Result<Json, string>, env: PostEnv): (r: PostRun)
    ensures r.response.BadRequest? ==> r.store == st && r.scheduler == sch
    ensures r.response.BadRequest? <==>
      body.Ok? && body.value != JNull &&
      (!IsString(Member(body.value, "scrapeUrl")) || !CronAccepted(Member(body.value, "cron")))
    ensures r.response.BadRequest? ==>
      r.response.reason == if !IsString(Member(body.value, "scrapeUrl")) then InvalidScrapeUrl else InvalidCronConfig
    ensures r.response.Saved? || r.response.SavedWithWarning? ==>
      && body.Ok? && IsString(Member(body.value, "scrapeUrl"))
      && ScrapeUrlKey in r.store.config
      && r.store.config[ScrapeUrlKey] == Member(body.value, "scrapeUrl").value.s
    ensures r.response.SavedWithWarning? ==>
      r.response.warning == StartFailedPrefix + InvalidExpressionMessage && Status(r.scheduler) == CronStatus(false, None)
    ensures r.response.Saved? && !Truthy(Member(body.value, "cron")) ==>
      r.store.config == st.config[ScrapeUrlKey := Member(body.value, "scrapeUrl").value.s] && r.scheduler == sch
    ensures r.store.rows == st.rows
    ensures Cron.Valid(sch) ==> Cron.Valid(r.scheduler)
  {
    match body
    case Err(m) => PostRun(st, sch, PostFailed(ErrorText(m)))
    case Ok(b) =>
      if b == JNull then PostRun(st, sch, PostFailed(NullBodyMessage))
      else
        var scrapeUrl := Member(b, "scrapeUrl");
        var cron := Member(b, "cron");
        if !IsString(scrapeUrl) then PostRun(st, sch, BadRequest(InvalidScrapeUrl))
        else if !CronAccepted(cron) then PostRun(st, sch, BadRequest(InvalidCronConfig))
        else Save(st, sch, scrapeUrl.value.s, cron, env)
  }

  /** Lines 43-64, once the body passed the checks: write the URL, then, for a
      truthy `cron`, write the configuration and start or stop the cron task. */
  function Save(st: Store, sch: Scheduler, url: string, cron: Option<Json>, env: PostEnv): (r: PostRun)
    requires CronAccepted(cron)
    ensures !r.response.BadRequest?
    ensures r.response.Saved? || r.response.SavedWithWarning? ==>
      ScrapeUrlKey in r.store.config && r.store.config[ScrapeUrlKey] == url
    ensures r.response.SavedWithWarning? ==>
      r.response.warning == StartFailedPrefix + InvalidExpressionMessage && Status(r.scheduler) == CronStatus(false, None)
    ensures r.response.PostFailed? || !Truthy(cron) ==> r.scheduler == sch
    ensures !Truthy(cron) ==>
      r.store.config == if r.response.Saved? then st.config[ScrapeUrlKey := url] else st.config
    ensures r.store.rows == st.rows
    ensures Cron.Valid(sch) ==> Cron.Valid(r.scheduler)
  {
    var u := UpdateScraperUrl(st, env.urlWrite, url);
    if u.result.Err? then PostRun(u.store, sch, PostFailed(ErrorText(u.result.error.message)))
    else if !Truthy(cron) then PostRun(u.store, sch, Saved)
    else
      var enabled := Member(cron.value, "enabled").value.b;
      var expression := Member(cron.value, "expression");
      var saved := SaveCronConfig(u.store, env.cronWrite, enabled, SavedExpression(expression));
      assert ScrapeUrlKey in saved.store.config && saved.store.config[ScrapeUrlKey] == url;
      if saved.result.Err? then PostRun(saved.store, sch, PostFailed(ErrorText(saved.result.error.message)))
      else
        var next := Apply(sch, enabled, expression, env.validate);
        PostRun(saved.store, next.scheduler, if next.warning.Some? then SavedWithWarning(next.warning.value) else Saved)
  }

  /** The cron state after lines 49-61 and the warning, if `startCron` threw. */
  datatype Applied = Applied(scheduler: Scheduler, warning: Option<string>)

  /** Lines 49-61: start the cron task when `enabled` and the expression is truthy,
      otherwise stop it. */
  function Apply(sch: Scheduler, enabled: bool, expression: Option<Json>, validate: Validator): (r: Applied)
    requires !Truthy(expression) || IsString(expression)
    ensures r.warning.Some? <==>
      enabled && Truthy(expression) && Start(sch, expression.value.s, validate).Err?
    ensures r.warning.Some? ==> r.warning.value == StartFailedPrefix + InvalidExpressionMessage
    ensures !(enabled && Truthy(expression)) || r.warning.Some? ==> r.scheduler == Stop(sch)
    ensures enabled && Truthy(expression) && r.warning.None? ==>
      r.scheduler == Start(sch, expression.value.s, validate).value
    ensures Cron.Valid(sch) ==> Cron.Valid(r.scheduler)
  {
    if enabled && Truthy(expression) then
      var e := expression.value.s;
      match Start(sch, e, validate)
      case Ok(_) => Applied(StartState(sch, e, validate), None)
      case Err(m) => Applied(Stop(sch), Some(StartFailedPrefix + m))
    else Applied(Stop(sch), None)
  }

  /** `GET()`: both reads, the URL first; the first failure answers with a 500. */
  function Get(st: Store, urlRead: Backend, cronRead: Backend): (r: GetRun)
    ensures r.store.rows == st.rows
    ensures r.response.Ok? ==> r.response.value.scrapeUrl == ConfiguredUrl(st.config)
    ensures r.response.Ok? ==>
      (r.response.value.cron.enabled <==> CronEnabledKey in st.config && st.config[CronEnabledKey] == "true")
    ensures r.response.Ok? ==>
      (r.response.value.cron.expression.None? <==> CronExpressionKey !in st.config || st.config[CronExpressionKey] == "")
    ensures r.response.Ok? && r.response.value.cron.expression.Some? ==>
      CronExpressionKey in st.config && r.response.value.cron.expression.value == st.config[CronExpressionKey]
    ensures r.response.Err? ==> r.response.error != ""
    ensures r.response.Err? <==>
      || FailsWithin(st, urlRead, if ScrapeUrlKey in st.config && st.config[ScrapeUrlKey] != "" then 1 else 2)
      || FailsWithin(GetScraperUrl(st, urlRead).store, cronRead, 1)
    ensures r.response.Err? ==> r.response.error == ErrorText(
      if GetScraperUrl(st, urlRead).result.Err? then CallError(st, urlRead).message
      else CallError(GetScraperUrl(st, urlRead).store, cronRead).message)
  {
    var url := GetScraperUrl(st, urlRead);
    match url.result
    case Err(e) => GetRun(url.store, Err(ErrorText(e.message)))
    case Ok(u) =>
      var cron := GetCronConfig(url.store, cronRead);
      match cron.result
      case Err(e) => GetRun(cron.store, Err(ErrorText(e.message)))
      case Ok(c) => GetRun(cron.store, Ok(Settings(u, c)))
  }

  // ---------------------------------------------------------------------------
  // Properties of a request

  /** The `cron` member `{enabled, expression}`. */
  function CronBody(enabled: bool, expression: Json): Json {
    JObject(map["enabled" := JBool(enabled), "expression" := expression])
  }

  /** The body `{scrapeUrl: u, cron: {enabled, expression}}`. */
  function Body(u: string, enabled: bool, expression: Json): Json {
    JObject(map["scrapeUrl" := JString(u), "cron" := CronBody(enabled, expression)])
  }

  /** A well-formed body reaches the saving part with its two members. */
  lemma BodyIsSaved(st: Store, sch: Scheduler, u: string, enabled: bool, expression: Json, env: PostEnv)
    requires !Truthy(Some(expression)) || expression.JString?
    ensures CronAccepted(Some(CronBody(enabled, expression)))
    ensures Post(st, sch, Ok(Body(u, enabled, expression)), env) == Save(st, sch, u, Some(CronBody(enabled, expression)), env)
  {
    assert Member(Body(u, enabled, expression), "scrapeUrl") == Some(JString(u));
    assert Member(Body(u, enabled, expression), "cron") == Some(CronBody(enabled, expression));
  }

  /** When both writes succeed, the store holds the URL and the configuration,
      and the cron state and the answer are those of `Apply`. */
  lemma BothWritesSucceed(st: Store, sch: Scheduler, u: string, enabled: bool, expression: Json, env: PostEnv)
    requires !Truthy(Some(expression)) || expression.JString?
    requires UpdateScraperUrl(st, env.urlWrite, u).result.Ok?
    requires SaveCronConfig(UpdateScraperUrl(st, env.urlWrite, u).store, env.cronWrite, enabled, SavedExpression(Some(expression))).result.Ok?
    ensures var r := Post(st, sch, Ok(Body(u, enabled, expression)), env);
      var a := Apply(sch, enabled, Some(expression), env.validate);
      && r.scheduler == a.scheduler
      && r.response == (if a.warning.Some? then SavedWithWarning(a.warning.value) else Saved)
      && r.store.config ==
           st.config[ScrapeUrlKey := u][CronEnabledKey := if enabled then "true" else "false"]
             [CronExpressionKey := SavedExpression(Some(expression)).GetOr("")]
  {
    BodyIsSaved(st, sch, u, enabled, expression, env);
    var c := CronBody(enabled, expression);
    assert Member(c, "enabled") == Some(JBool(enabled));
    assert Member(c, "expression") == Some(expression);
  }

  /** A non-empty expression the validator accepts is saved as sent and started
      trimmed: the stored configuration and the running task disagree by the
      white space around the expression. */
  lemma StartedExpressionIsTrimmed(st: Store, sch: Scheduler, u: string, e: string, env: PostEnv)
    requires Cron.Valid(sch)
    requires e != ""
    requires Start(sch, e, env.validate).Ok?
    requires UpdateScraperUrl(st, env.urlWrite, u).result.Ok?
    requires SaveCronConfig(UpdateScraperUrl(st, env.urlWrite, u).store, env.cronWrite, true, Some(e)).result.Ok?
    ensures var r := Post(st, sch, Ok(Body(u, true, JString(e))), env);
      && r.response == Saved
      && r.store.config[CronExpressionKey] == e
      && Status(r.scheduler) == CronStatus(true, Some(Trim(e)))
  {
    BothWritesSucceed(st, sch, u, true, JString(e), env);
    var a := Apply(sch, true, Some(JString(e)), env.validate);
    assert a.warning.None? && a.scheduler == Start(sch, e, env.validate).value;
    StartThenStatus(sch, e, env.validate);
  }

  /** An expression the validator refuses is still saved, the running task is
      stopped, and the answer is a success with a warning. */
  lemma RefusedExpressionIsSaved(st: Store, sch: Scheduler, u: string, e: string, env: PostEnv)
    requires Cron.Valid(sch)
    requires e != ""
    requires Start(sch, e, env.validate).Err?
    requires UpdateScraperUrl(st, env.urlWrite, u).result.Ok?
    requires SaveCronConfig(UpdateScraperUrl(st, env.urlWrite, u).store, env.cronWrite, true, Some(e)).result.Ok?
    ensures var r := Post(st, sch, Ok(Body(u, true, JString(e))), env);
      && r.response == SavedWithWarning(StartFailedPrefix + InvalidExpressionMessage)
      && r.store.config[CronEnabledKey] == "true"
      && r.store.config[CronExpressionKey] == e
      && Status(r.scheduler) == CronStatus(false, None)
  {
    BothWritesSucceed(st, sch, u, true, JString(e), env);
    var a := Apply(sch, true, Some(JString(e)), env.validate);
    assert a.warning == Some(StartFailedPrefix + InvalidExpressionMessage) && a.scheduler == Stop(sch);
  }

  /** `expression: false` passes the check because it is falsy, is stored as
      the text "false" next to `cron_enabled = "true"`, and stops the cron task: the
      stored configuration then reads as enabled with expression "false" while
      nothing runs. */
  lemma FalseExpressionIsStored(st: Store, sch: Scheduler, u: string, env: PostEnv, b: Backend)
    requires UpdateScraperUrl(st, env.urlWrite, u).result.Ok?
    requires SaveCronConfig(UpdateScraperUrl(st, env.urlWrite, u).store, env.cronWrite, true, Some("false")).result.Ok?
    ensures var r := Post(st, sch, Ok(Body(u, true, JBool(false))), env);
      && r.response == Saved
      && Status(r.scheduler) == CronStatus(false, None)
      && (GetCronConfig(r.store, b).result.Ok? ==>
            GetCronConfig(r.store, b).result.value == CronConfig(true, Some("false")))
  {
    BothWritesSucceed(st, sch, u, true, JBool(false), env);
    var a := Apply(sch, true, Some(JBool(false)), env.validate);
    assert a.warning.None? && a.scheduler == Stop(sch);
    var t := Post(st, sch, Ok(Body(u, true, JBool(false))), env).store;
    assert CronEnabledKey in t.config && t.config[CronEnabledKey] == "true";
    assert CronExpressionKey in t.config && t.config[CronExpressionKey] == "false";
  }

  /** Enabled with an empty expression: saved as enabled, but the cron task is
      stopped, so the stored flag and the cron status disagree. */
  lemma EnabledWithoutExpressionStops(st: Store, sch: Scheduler, u: string, env: PostEnv, b: Backend)
    requires UpdateScraperUrl(st, env.urlWrite, u).result.Ok?
    requires SaveCronConfig(UpdateScraperUrl(st, env.urlWrite, u).store, env.cronWrite, true, Some("")).result.Ok?
    ensures var r := Post(st, sch, Ok(Body(u, true, JString(""))), env);
      && r.response == Saved
      && Status(r.scheduler) == CronStatus(false, None)
      && (GetCronConfig(r.store, b).result.Ok? ==> GetCronConfig(r.store, b).result.value == CronConfig(true, None))
  {
    BothWritesSucceed(st, sch, u, true, JString(""), env);
    var a := Apply(sch, true, Some(JString("")), env.validate);
    assert a.warning.None? && a.scheduler == Stop(sch);
    var t := Post(st, sch, Ok(Body(u, true, JString(""))), env).store;
    assert CronEnabledKey in t.config && t.config[CronEnabledKey] == "true";
    assert CronExpressionKey in t.config && t.config[CronExpressionKey] == "";
  }

  /** When the cron upserts fail after the URL was written, the answer is a 500
      but the new URL stays stored and the cron task is untouched. */
  lemma CronSaveFailureKeepsUrl(st: Store, sch: Scheduler, u: string, enabled: bool, e: string, env: PostEnv)
    requires UpdateScraperUrl(st, env.urlWrite, u).result.Ok?
    requires SaveCronConfig(UpdateScraperUrl(st, env.urlWrite, u).store, env.cronWrite, enabled, Some(e)).result.Err?
    ensures var r := Post(st, sch, Ok(Body(u, enabled, JString(e))), env);
      && r.response.PostFailed?
      && r.store.config[ScrapeUrlKey] == u
      && r.scheduler == sch
  {
    BodyIsSaved(st, sch, u, enabled, JString(e), env);
    var c := CronBody(enabled, JString(e));
    assert Member(c, "enabled") == Some(JBool(enabled));
    assert Member(c, "expression") == Some(JString(e));
  }

  /** A request without `cron` only writes the URL and leaves the cron task alone. */
  lemma UrlOnlyLeavesCron(st: Store, sch: Scheduler, u: string, env: PostEnv)
    requires UpdateScraperUrl(st, env.urlWrite, u).result.Ok?
    ensures var r := Post(st, sch, Ok(JObject(map["scrapeUrl" := JString(u)])), env);
      && r.response == Saved
      && r.scheduler == sch
      && r.store.config == st.config[ScrapeUrlKey := u]
  {
  }

  /** A falsy `cron` (`null`, `false`, `0`, `""`) is treated as absent: only the
      URL is written, both cron keys keep their values, and the cron task is
      left alone. */
  lemma FalsyCronLeavesCron(st: Store, sch: Scheduler, u: string, cron: Json, env: PostEnv)
    requires !Truthy(Some(cron))
    requires UpdateScraperUrl(st, env.urlWrite, u).result.Ok?
    ensures var r := Post(st, sch, Ok(JObject(map["scrapeUrl" := JString(u), "cron" := cron])), env);
      && r.response == Saved
      && r.scheduler == sch
      && r.store.config == st.config[ScrapeUrlKey := u]
  {
    var body := JObject(map["scrapeUrl" := JString(u), "cron" := cron]);
    assert Member(body, "scrapeUrl") == Some(JString(u));
    assert Member(body, "cron") == Some(cron);
  }

  /** What a successful save writes is what a later successful `GET` reads: the
      URL, or the default in place of an empty one, and the cron flag with the
      expression, an empty one reading as none. */
  lemma SavedSettingsReadBack(st: Store, sch: Scheduler, u: string, enabled: bool, e: string, env: PostEnv,
                              urlRead: Backend, cronRead: Backend)
    requires UpdateScraperUrl(st, env.urlWrite, u).result.Ok?
    requires SaveCronConfig(UpdateScraperUrl(st, env.urlWrite, u).store, env.cronWrite, enabled, Some(e)).result.Ok?
    requires Get(Post(st, sch, Ok(Body(u, enabled, JString(e))), env).store, urlRead, cronRead).response.Ok?
    ensures Get(Post(st, sch, Ok(Body(u, enabled, JString(e))), env).store, urlRead, cronRead).response.value ==
      Settings(if u != "" then u else DefaultScraperUrl, CronConfig(enabled, if e != "" then Some(e) else None))
  {
    SavedBodyIsStored(st, sch, u, enabled, e, env);
    var t := Post(st, sch, Ok(Body(u, enabled, JString(e))), env).store;
    StoredSettingsAreRead(t, urlRead, cronRead, u, enabled, e);
  }

  /** After both writes succeed the three keys hold the URL, the flag and the
      expression as sent. */
  lemma SavedBodyIsStored(st: Store, sch: Scheduler, u: string, enabled: bool, e: string, env: PostEnv)
    requires UpdateScraperUrl(st, env.urlWrite, u).result.Ok?
    requires SaveCronConfig(UpdateScraperUrl(st, env.urlWrite, u).store, env.cronWrite, enabled, Some(e)).result.Ok?
    ensures var t := Post(st, sch, Ok(Body(u, enabled, JString(e))), env).store;
      && ScrapeUrlKey in t.config && t.config[ScrapeUrlKey] == u
      && CronEnabledKey in t.config && (t.config[CronEnabledKey] == "true" <==> enabled)
      && CronExpressionKey in t.config && t.config[CronExpressionKey] == e
  {
    BothWritesSucceed(st, sch, u, enabled, JString(e), env);
  }

  /** A successful `GET` on a store holding a URL, a cron flag and an
      expression answers with them, reading empty text as absent. */
  lemma StoredSettingsAreRead(t: Store, urlRead: Backend, cronRead: Backend, u: string, enabled: bool, e: string)
    requires ScrapeUrlKey in t.config && t.config[ScrapeUrlKey] == u
    requires CronEnabledKey in t.config && (t.config[CronEnabledKey] == "true" <==> enabled)
    requires CronExpressionKey in t.config && t.config[CronExpressionKey] == e
    requires Get(t, urlRead, cronRead).response.Ok?
    ensures Get(t, urlRead, cronRead).response.value ==
      Settings(if u != "" then u else DefaultScraperUrl, CronConfig(enabled, if e != "" then Some(e) else None))
  {
  }
}
